=== FILE: README.md ===
# Unity base architecture: a Dafny model of its core services

This project models the runtime core of a small Unity game skeleton:

- the typed event bus;
- the process-wide service locator and the installer component that fills it;
- the UI manager and its presenter factory;
- the asynchronous scene loader;
- the localization service and the registry of localized texts;
- the editor-side import that turns a published spreadsheet into one
  key/value table per language.

Every component is a pure function over immutable values:

- a call takes the component's state and returns the new state;
- it also returns what the C# code does to the outside world, as a trace:
  handler invocations, Unity calls, published events, log lines;
- exceptions that escape a call become an `Outcome` or `Result` value.

What Unity or the host supplies becomes a parameter of the call. That covers
the object `Instantiate` returns, whether a scene operation is done, the
language files, and the order in which a `Dictionary` or `HashSet` is
enumerated.

Modules follow the source files:

| module | file | models |
|---|---|---|
| `Wrappers` | wrappers.dfy | `Option`, `Result`, `Outcome` |
| `Collections` | collections.dfy | `List.Remove`; "this sequence enumerates that set" |
| `Text` | text.dfy | ASCII `ToLowerInvariant`, `OrdinalIgnoreCase`, `Trim`, `Split` |
| `EventBus` | event_bus.dfy | `EventBus` |
| `ServiceLocator` | service_locator.dfy | `ServiceLocator` |
| `Installers` | installers.dfy | `ServicesInstaller` |
| `UiConstants` | ui_constants.dfy | `ScreenId`, `UiLayer`, Unity handles |
| `PresenterFactory` | presenter_factory.dfy | `PresenterFactory` |
| `UiManager` | ui_manager.dfy | `UiManager` |
| `SceneLoader` | scene_loader.dfy | `SceneLoader` |
| `LocalizationService` | localization_service.dfy | `LocalizationService` |
| `LocalizationRegistry` | localization_registry.dfy | `LocalizationRegistry` |
| `LocalizationSync` | localization_sync.dfy | the pure part of `LocalizationSyncWindow` |

A C# enum variable can hold any integer. Each enum (`ScreenId`, `UiLayer`,
`LanguageId`) therefore has one extra constructor for undeclared values, so the
`default:` arms of the source can be reached and are modelled. Examples are the
factory's `NotImplementedException`, the fallback to the manager's own
`transform`, and the "en" code.

Four behaviours of the code are easy to misread, and the model follows the
code as written:

- **A throwing handler ends delivery.** `Publish` runs its `foreach` at
  EventBus.cs:30-31 with no `try`/`catch`. The first exception ends delivery
  and reaches the publisher; later handlers are not called
  (`EventBus.PublishFaulting`).
- **Publish iterates over the live list.** The `foreach` at EventBus.cs:30
  walks the stored `List` itself, not a copy. Only a change to that one list
  makes the next `MoveNext` throw: a `Subscribe` that adds to it, or an
  `Unsubscribe` that actually removes a handler from it. Subscribing to
  another event type, or unsubscribing a handler that is not in the list
  (`List.Remove` then returns false and leaves the list as it was), lets
  delivery carry on. The model does not let handlers change the table.
- **A load that may not activate never completes.** `Load` sets
  `op.allowSceneActivation = activateOnLoad` (SceneLoader.cs:121), and Unity
  keeps such an operation at `isDone == false`, progress 0.9, until
  activation is allowed. Nothing else holds `op`, so a `LoadSceneRequest`
  with `ActivateOnLoad = false` never publishes `SceneLoadCompleted`. It
  reports progress at every resumption until a cancelling request ends it
  (`SceneLoader.NonActivatingLoadNeverCompletes`).
- **Uninstall runs in declared order.** The loop at ServicesInstaller.cs:42-45
  walks the installer array front to back, like the install loop at
  ServicesInstaller.cs:22-32, not in reverse.
- **Uninstall is stricter than install.** Install skips null slots and
  non-installers. The uninstall `foreach (Installer installer in …)` at
  ServicesInstaller.cs:42 casts every slot to `Installer`, so a null slot
  throws `NullReferenceException`. A component that implements `IInstaller`
  without deriving from `Installer` throws `InvalidCastException`
  (`Installers.UninstallIsStricterThanInstall`).

## Model

| member | source | states |
|---|---|---|
| Collections.RemoveFirst | Assets/Scripts/Core/EventBus/EventBus.cs:23 | `List.Remove`: an absent element leaves the list unchanged; otherwise exactly one element goes |
| Collections.RemoveFirstAtFirstIndex | Assets/Scripts/Core/EventBus/EventBus.cs:23 | the element removed is the first occurrence: the result is the list with that one index cut out |
| Text.Lower | Assets/Scripts/Core/Localization/LocalizationService.cs:176 | lower-casing keeps the length, leaves no ASCII capital, moves every capital 32 code points up to its small letter and keeps every other character, position by position |
| Text.LowerFixesExactlyNoUpper | Assets/Scripts/Core/Localization/LocalizationService.cs:176 | lower-casing leaves a string unchanged exactly when it holds no ASCII capital |
| Text.LowerIsIdempotent | Assets/Scripts/Core/Localization/LocalizationService.cs:176 | lower-casing twice is lower-casing once |
| Text.Trim | Assets/Scripts/Editor/LocalizationSyncWindow.cs:85 | the result is a contiguous slice of the input with no white space at either end; everything cut off before or after it is white space |
| Text.TrimIsEmptyIffBlank | Assets/Scripts/Editor/LocalizationSyncWindow.cs:85-86 | a cell trims to the empty string exactly when every character of it is white space |
| Text.SplitOn | Assets/Scripts/Editor/LocalizationSyncWindow.cs:146-147 | `Split` gives one more piece than there are delimiters, no piece contains the delimiter, and joining the pieces with it gives the input back |
| EventBus.Subscribe | Assets/Scripts/Core/EventBus/EventBus.cs:10-17 | the handler is appended at the end of its type's list, which is created on first use; every other type's list is unchanged |
| EventBus.Unsubscribe | Assets/Scripts/Core/EventBus/EventBus.cs:19-24 | a handler that is not subscribed changes nothing; otherwise the type's list loses the first copy of the handler (`List.Remove`), the list itself is kept even when empty, and other types are unchanged |
| EventBus.Publish | Assets/Scripts/Core/EventBus/EventBus.cs:26-32 | with no throwing handler, every subscribed handler of the event's type gets the payload exactly once, in subscription order; a type never subscribed reaches nobody |
| EventBus.PublishFaulting | Assets/Scripts/Core/EventBus/EventBus.cs:26-32 | when some handlers throw, delivery stops right after the first of them, and that handler's exception escapes to the publisher |
| EventBus.PublishFrom | Assets/Scripts/Core/EventBus/EventBus.cs:29-31 | the loop over one list with throwing handlers: the delivered prefix ends at the first faulty handler, which is reported; without one, everything is delivered |
| EventBus.SubscribeAllAppends | Assets/Scripts/Core/EventBus/EventBus.cs:10-17 | successive subscriptions append their handlers in call order and touch no other type |
| EventBus.DispatchOrder | Assets/Scripts/Core/EventBus/EventBus.cs:10-32 | after N subscriptions to a fresh type, one publish invokes the N handlers once each in subscription order, duplicates included |
| EventBus.RemoveFirstAfterAppend | Assets/Scripts/Core/EventBus/EventBus.cs:16-23 | removing a handler after appending it takes out its earliest copy: the new one when it was absent before, the old one otherwise |
| EventBus.SubscribeUnsubscribeRoundTrip | Assets/Scripts/Core/EventBus/EventBus.cs:10-24 | subscribe then unsubscribe gives back the type's handlers when the handler was absent (the table itself when the type already had a list); when it was present, its earliest copy leaves and the new one stays at the end; other types are untouched |
| EventBus.UnsubscribeAbsentIsNoOp | Assets/Scripts/Core/EventBus/EventBus.cs:19-24 | unsubscribing an absent handler is a no-op, also when repeated |
| ServiceLocator.Get | Assets/Scripts/Core/ServiceLocator/ServiceLocator.cs:28-36 | a registered type returns its stored value, even a null one, without logging; an unregistered type logs "not found" and returns null |
| ServiceLocator.Register | Assets/Scripts/Core/ServiceLocator/ServiceLocator.cs:12-19 | afterwards `Get` of the type returns the new value; `Get` of every other type is unchanged |
| ServiceLocator.Unregister | Assets/Scripts/Core/ServiceLocator/ServiceLocator.cs:21-26 | afterwards the type is not found, every other type reads as before, and a missing type changes nothing |
| ServiceLocator.Clear | Assets/Scripts/Core/ServiceLocator/ServiceLocator.cs:38 | afterwards no type is found, and the singleton is kept |
| ServiceLocator.GetInstance | Assets/Scripts/Core/ServiceLocator/ServiceLocator.cs:8-9 | the first read creates the singleton; once it exists, every read returns that same object and changes nothing |
| ServiceLocator.InstanceIsStable | Assets/Scripts/Core/ServiceLocator/ServiceLocator.cs:8 | two reads of `Instance` give the same object |
| ServiceLocator.LastWriteWins | Assets/Scripts/Core/ServiceLocator/ServiceLocator.cs:12-19 | registering a type twice is the same as registering only the second value |
| ServiceLocator.RegisterUnregister | Assets/Scripts/Core/ServiceLocator/ServiceLocator.cs:12-36 | register then unregister makes the type not found again and, for a type that was absent, restores the registry |
| Installers.InstallLoop | Assets/Scripts/Core/Installers/ServicesInstaller.cs:22-32 | every `IInstaller` slot is installed in declared order and the registry ends as their install operations leave it; non-null non-installers are skipped with a warning and null slots silently |
| Installers.Install | Assets/Scripts/Core/Installers/ServicesInstaller.cs:16-33 | a null array installs nothing; otherwise exactly the installers of the array, in order |
| Installers.UninstallLoop | Assets/Scripts/Core/Installers/ServicesInstaller.cs:42-45 | the slots before the first one that is not an `Installer` are uninstalled in declared order; that slot throws, `NullReferenceException` when null and `InvalidCastException` otherwise; without one the loop completes |
| Installers.Uninstall | Assets/Scripts/Core/Installers/ServicesInstaller.cs:35-46 | a null array throws at once; otherwise the run completes exactly when every slot derives from `Installer` |
| Installers.UninstallInDeclaredOrder | Assets/Scripts/Core/Installers/ServicesInstaller.cs:22-45 | with two installers, the first one installed is also the first one uninstalled |
| Installers.UninstallIsStricterThanInstall | Assets/Scripts/Core/Installers/ServicesInstaller.cs:24-45 | a null slot or a bare `IInstaller` is harmless to install, but makes uninstall throw before any later installer is reached |
| PresenterFactory.Create | Assets/Scripts/Core/UI/PresenterFactory.cs:8-17 | creation succeeds exactly for the declared screens, with a presenter holding the given view; any other value fails with "not implemented" for that id |
| PresenterFactory.CreateIsTotalAndInjective | Assets/Scripts/Core/UI/PresenterFactory.cs:10-15 | every declared screen gets its own presenter class, and different screens get different classes |
| UiManager.FindEntry | Assets/Scripts/Core/UI/UiManager.cs:173-179 | the first catalog entry for the screen; without one, a fresh entry with no prefab on the Screen layer |
| UiManager.ResolveParent | Assets/Scripts/Core/UI/UiManager.cs:159-171 | an explicit parent wins even without anchors; with neither there is no parent; otherwise the Screen, Overlay and Popup layers take the anchors' screen, overlay and popup root, and an undeclared layer the manager's transform |
| UiManager.Show | Assets/Scripts/Core/UI/UiManager.cs:91-129 | an active screen is only reactivated; otherwise a record is added exactly when there is a prefab, a parent, a view component and a presenter class; other records are untouched; an undeclared screen with prefab, parent and view throws `NotImplemented` after instantiating the object and initializing and activating its view, and records nothing; every record keeps its screen's presenter on its own view |
| UiManager.ShowAbortPaths | Assets/Scripts/Core/UI/UiManager.cs:100-119 | a missing prefab or a missing parent logs one error and changes nothing; an object without a view is instantiated and destroyed again |
| UiManager.ShowCallOrder | Assets/Scripts/Core/UI/UiManager.cs:113-128 | a successful show calls, in order: instantiate, view initialize, view activate, presenter creation, presenter initialize, subscribe; only then is the triple recorded |
| UiManager.ShowInstantiatesUnderLayerRoot | Assets/Scripts/Core/UI/UiManager.cs:107-113 | a screen without an explicit parent is instantiated under its layer's anchor root (the manager's transform for an undeclared layer) |
| UiManager.Hide | Assets/Scripts/Core/UI/UiManager.cs:131-143 | an inactive screen is a no-op; otherwise unsubscribe, dispose, deactivate, tear down, destroy the object unless Unity already destroyed it, and drop only that record |
| UiManager.Toggle | Assets/Scripts/Core/UI/UiManager.cs:145-149 | an active screen is hidden, an inactive one is shown |
| UiManager.ShowTwiceInstantiatesOnce | Assets/Scripts/Core/UI/UiManager.cs:93-98 | a second show of a shown screen only reactivates its view: no second object or presenter |
| UiManager.HideThenShowIsFresh | Assets/Scripts/Core/UI/UiManager.cs:91-143 | after hide then show, the record holds the newly instantiated object and view, not the torn-down ones |
| UiManager.ToggleTwiceRestores | Assets/Scripts/Core/UI/UiManager.cs:145-149 | two toggles of a hidden screen that can be shown give back the initial records |
| UiManager.ShowWithoutDescriptor | Assets/Scripts/Core/UI/UiManager.cs:100-105 | a screen without a catalog entry logs "prefab not found" and records nothing |
| UiManager.TeardownIsHideWithoutDeactivate | Assets/Scripts/Core/UI/UiManager.cs:81-87 | the teardown of one record on disable is `Hide`'s call sequence without `ActiveView(false)` |
| UiManager.Disable | Assets/Scripts/Core/UI/UiManager.cs:67-89 | on disable, the ShowView, HideView and ToggleView lists each lose the first copy of the manager's handler and no other type is touched; `IUiManager` is unregistered only when this manager is the registered one; all records are cleared |
| UiManager.TeardownAllDisposes | Assets/Scripts/Core/UI/UiManager.cs:81-87 | tearing down the listed records disposes each one's presenter once, in list order |
| UiManager.TeardownDisposesEachRecord | Assets/Scripts/Core/UI/UiManager.cs:81-87 | tearing down the records in any enumeration order of the dictionary gives one dispose per record, and every record's presenter is among them |
| UiManager.DisableDisposesEachRecordOnce | Assets/Scripts/Core/UI/UiManager.cs:81-88 | on disable, whatever the dictionary's enumeration order, there is one dispose per record and every record's presenter is disposed |
| SceneLoader.InitialIsValid | Assets/Scripts/Core/SceneLoader/SceneLoader.cs:13-15 | the fresh component satisfies the loader invariant |
| SceneLoader.BeginLoad | Assets/Scripts/Core/SceneLoader/SceneLoader.cs:113-132 | a load always publishes Started first; with no operation it stops there; an operation already done adds Completed when the load may activate, and otherwise counts as running at progress 0.9; a running one reports progress and suspends; a load that may not activate publishes no Completed |
| SceneLoader.Request | Assets/Scripts/Core/SceneLoader/SceneLoader.cs:47-71 | a cancelling request with a live source cancels it and publishes Canceled for the old scene; in every case a fresh uncancelled source replaces the old one and the scene becomes current; the events are then Started and, by the host's result, nothing, Completed (only for a load that may activate), or Progress with a suspended load on the new source's token; a done operation of a load that may not activate gives Progress at 0.9 and a suspended load; the invariant is kept |
| SceneLoader.Tick | Assets/Scripts/Core/SceneLoader/SceneLoader.cs:61-131 | a resumed load that may activate publishes Completed and ends on Done (even on a cancelled token); a load that may not activate never completes, and a host Done counts as running at progress 0.9; a load that is not done publishes Canceled for its own scene and ends on a cancelled token, and otherwise reports progress and stays suspended; a resumed unload publishes UnloadCompleted and ends on Done and publishes nothing while running; only that flight changes; the invariant is kept |
| SceneLoader.Unload | Assets/Scripts/Core/SceneLoader/SceneLoader.cs:73-84 | without a running operation, UnloadCompleted is published at once; otherwise the unload waits; the source and current scene are untouched |
| SceneLoader.Reload | Assets/Scripts/Core/SceneLoader/SceneLoader.cs:86-90 | a reload starts a non-additive load of the active scene on the default token and leaves the source and current scene alone |
| SceneLoader.Dispose | Assets/Scripts/Core/SceneLoader/SceneLoader.cs:36-45 | dispose takes the first copy of the loader's handler off each of the LoadSceneRequest, UnloadSceneRequest and ReloadActiveRequest lists and touches no other type; it cancels the live source and forgets it |
| SceneLoader.RunEndedFlight | Assets/Scripts/Core/SceneLoader/SceneLoader.cs:123-131 | a finished flight publishes nothing more |
| SceneLoader.LoadRunShape | Assets/Scripts/Core/SceneLoader/SceneLoader.cs:113-132 | a suspended load publishes progress for its own scene, then at most one terminal event (Completed or its own Canceled), then nothing; Canceled needs a cancelled token |
| SceneLoader.CancelledLoadEndsAtNextCheck | Assets/Scripts/Core/SceneLoader/SceneLoader.cs:61-131 | a suspended load whose token was cancelled publishes exactly one more event, Canceled for its own scene (Completed if the host reports done at that check and the load may activate), and is gone afterwards |
| SceneLoader.DoneBeatsCancellation | Assets/Scripts/Core/SceneLoader/SceneLoader.cs:123-125 | an operation that is done completes even when its token was cancelled; a load that may not activate is canceled instead |
| SceneLoader.ReloadIsNeverCanceled | Assets/Scripts/Core/SceneLoader/SceneLoader.cs:86-90 | a reload never ends in Canceled |
| SceneLoader.NoOperationOnlyStarts | Assets/Scripts/Core/SceneLoader/SceneLoader.cs:115-119 | with no host operation, a load publishes only Started and leaves nothing suspended |
| SceneLoader.CompletedLoadIsCanceledLater | Assets/Scripts/Core/SceneLoader/SceneLoader.cs:51-58 | the source outlives its completed load, so the next cancelling request publishes Canceled for a scene that already completed (the load completes when it may activate) |
| SceneLoader.SupersededLoadIsCanceledTwice | Assets/Scripts/Core/SceneLoader/SceneLoader.cs:47-71 | for requests A then B both cancelling: Started(A), Progress(A), Canceled(A), Started(B), Progress(B), then Canceled(A) again when A resumes, then Completed(B) |
| SceneLoader.FirstLoadScenario | Assets/Scripts/Core/SceneLoader/SceneLoader.cs:113-131 | a first activating load that ends with Done publishes Started, progress for that scene only, and at least one later event, the last being Completed |
| SceneLoader.LoadRunEndsOnDone | Assets/Scripts/Core/SceneLoader/SceneLoader.cs:123-131 | a load that may activate, on an uncancelled token, resumed until Done, ends in Completed and leaves the flights |
| SceneLoader.NonActivatingLoadNeverCompletes | Assets/Scripts/Core/SceneLoader/SceneLoader.cs:113-132 | a suspended load that may not activate never publishes Completed; on an uncancelled token it stays suspended and publishes one progress report for its own scene per resumption |
| SceneLoader.NonActivatingRequestNeverCompletes | Assets/Scripts/Core/SceneLoader/SceneLoader.cs:47-132 | a request with `ActivateOnLoad = false` publishes no Completed, whether at its start or at any later resumption of its load |
| LocalizationService.ToIsoCode | Assets/Scripts/Core/Localization/LocalizationService.cs:164-172 | every language gets one of the five codes; an undeclared one gets "en" |
| LocalizationService.FromIsoCode | Assets/Scripts/Core/Localization/LocalizationService.cs:174-185 | a language is found exactly when the lower-cased code is one of the five codes, and its code is that lower-cased code; null finds nothing |
| LocalizationService.FromIsoCodeIgnoresCase | Assets/Scripts/Core/Localization/LocalizationService.cs:176 | a code and its lower-case form name the same language |
| LocalizationService.IsoRoundTrip | Assets/Scripts/Core/Localization/LocalizationService.cs:164-185 | for every declared language, code to language gives back the language |
| LocalizationService.FromSystemLanguage | Assets/Scripts/Core/Localization/LocalizationService.cs:69-79 | English, Spanish, Italian, French and Russian map to the language of the same name; every other system language maps to English |
| LocalizationService.Get | Assets/Scripts/Core/Localization/LocalizationService.cs:83-94 | a null or empty key gives ""; otherwise the current table's text, then the fallback's text, then "#" + key |
| LocalizationService.TryGet | Assets/Scripts/Core/Localization/LocalizationService.cs:96-106 | a null key throws; otherwise true with non-empty text exactly when one of the two tables has text, and false with null otherwise |
| LocalizationService.TryGetAgreesWithGet | Assets/Scripts/Core/Localization/LocalizationService.cs:83-106 | for a non-empty key, a hit gives `Get`'s value, and a miss happens exactly when `Get` falls back to the placeholder |
| LocalizationService.LoadLanguage | Assets/Scripts/Core/Localization/LocalizationService.cs:114-133 | loading succeeds exactly when the file is there and parses, and the table is then its contents, otherwise empty |
| LocalizationService.SetLanguage | Assets/Scripts/Core/Localization/LocalizationService.cs:39-67 | the same language with a loaded table does nothing; otherwise the requested language if its file loads, else the default one; the code is persisted once and announced once when a bus exists |
| LocalizationService.SetSystemLanguage | Assets/Scripts/Core/Localization/LocalizationService.cs:69-81 | each of the five known system languages sets the language of the same name; any other sets English |
| LocalizationService.SystemLanguageCodes | Assets/Scripts/Core/Localization/LocalizationService.cs:69-81 | the five known system languages land on the codes "en", "es", "it", "fr", "ru", any other on "en", and that code names the language back |
| LocalizationService.New | Assets/Scripts/Core/Localization/LocalizationService.cs:25-37 | the constructor loads the default language's fallback; a stored code naming a language whose file loads makes that language current; a stored language whose file does not load, or an unknown stored code, gives the default; with nothing stored, the default's code; the code is persisted, and announced once exactly when a bus exists |
| LocalizationService.DefaultCodeNamesDefault | Assets/Scripts/Core/Localization/LocalizationService.cs:31-35 | the language the default's own code names has that code, and is the default itself when it is declared |
| LocalizationService.NewRestoresSavedLanguage | Assets/Scripts/Core/Localization/LocalizationService.cs:34-36 | a stored code of a declared language whose file loads restores exactly that language |
| LocalizationService.SetLanguageSettles | Assets/Scripts/Core/Localization/LocalizationService.cs:49-50 | setting a language whose table is non-empty twice: the second call does nothing |
| LocalizationRegistry.SetService | Assets/Scripts/Core/Localization/LocalizationRegistry.cs:10-13 | the stored service is replaced and nothing is refreshed |
| LocalizationRegistry.Add | Assets/Scripts/Core/Localization/LocalizationRegistry.cs:15-21 | a new text is registered and refreshed once with the stored service; a known text changes nothing |
| LocalizationRegistry.Remove | Assets/Scripts/Core/Localization/LocalizationRegistry.cs:23 | the text is dropped, an unknown one changes nothing, and nothing is refreshed |
| LocalizationRegistry.RefreshAll | Assets/Scripts/Core/Localization/LocalizationRegistry.cs:25-29 | the service is stored and every registered text is refreshed with it exactly once, whatever the enumeration order |
| LocalizationRegistry.AddUsesLatestService | Assets/Scripts/Core/Localization/LocalizationRegistry.cs:10-29 | a text added later is refreshed with the service of the latest `SetService` or `RefreshAll` |
| LocalizationRegistry.AddRemoveRoundTrip | Assets/Scripts/Core/Localization/LocalizationRegistry.cs:15-23 | removing a text just added restores the registry, and adding it back refreshes it again |
| LocalizationRegistry.AddIsIdempotent | Assets/Scripts/Core/Localization/LocalizationRegistry.cs:15-21 | a second add of the same text changes nothing and refreshes nothing |
| LocalizationSync.Scan | Assets/Scripts/Editor/LocalizationSyncWindow.cs:153-178 | the comma-mode scanner yields one more field than there are delimiters outside quotes |
| LocalizationSync.SplitRow | Assets/Scripts/Editor/LocalizationSyncWindow.cs:144-181 | a row always has at least one field; tab mode is a plain split on tabs; comma mode has one field more than the delimiters outside quotes |
| LocalizationSync.SplitRowLoop | Assets/Scripts/Editor/LocalizationSyncWindow.cs:149-180 | the index loop, with its skip over the second of two quotes, computes exactly the fields of `SplitRow` |
| LocalizationSync.ScanWithoutQuotes | Assets/Scripts/Editor/LocalizationSyncWindow.cs:153-178 | without quote characters, the scanner splits exactly like a plain split |
| LocalizationSync.PlainRowRoundTrip | Assets/Scripts/Editor/LocalizationSyncWindow.cs:144-181 | a row without quotes splits into delimiter-free fields, one more than its delimiters, that join back to the row |
| LocalizationSync.QuotesAreConsumed | Assets/Scripts/Editor/LocalizationSyncWindow.cs:157-168 | in comma mode, a row with no two adjacent quote characters anywhere (so without doubled quotes) yields fields with no quote character |
| LocalizationSync.QuotedDelimiterExample | Assets/Scripts/Editor/LocalizationSyncWindow.cs:157-173 | `"a,b",c` splits into `a,b` and `c` |
| LocalizationSync.DoubledQuoteExample | Assets/Scripts/Editor/LocalizationSyncWindow.cs:159-163 | `"x""y"` splits into the single field `x"y` |
| LocalizationSync.MidFieldQuoteExample | Assets/Scripts/Editor/LocalizationSyncWindow.cs:157-168 | a quote in mid-field toggles quoting: `a"b,c"d` is the one field `ab,cd` |
| LocalizationSync.TabModeKeepsQuotes | Assets/Scripts/Editor/LocalizationSyncWindow.cs:146-147 | in tab mode, quotes are ordinary characters and are kept |
| LocalizationSync.LookupAlias | Assets/Scripts/Editor/LocalizationSyncWindow.cs:88-89 | a header has an alias exactly when its lower-cased text is a key of the alias table, and the alias is that key's code |
| LocalizationSync.IsoFor | Assets/Scripts/Editor/LocalizationSyncWindow.cs:85-91 | a header's language code is its alias when its lower-cased text is a key of the alias table, and the header as written otherwise |
| LocalizationSync.ColumnsFrom | Assets/Scripts/Editor/LocalizationSyncWindow.cs:83-94 | every column found lies after the key column, has a non-empty trimmed header, and carries that header's code |
| LocalizationSync.ColumnsFromOrdered | Assets/Scripts/Editor/LocalizationSyncWindow.cs:83-94 | the columns come in header order |
| LocalizationSync.ColumnsFromComplete | Assets/Scripts/Editor/LocalizationSyncWindow.cs:83-94 | every non-empty header cell after the key column has a column |
| LocalizationSync.LanguageColumns | Assets/Scripts/Editor/LocalizationSyncWindow.cs:82-94 | each language column reads a non-blank header cell after the key column, under that cell's code |
| LocalizationSync.LanguageColumnsExact | Assets/Scripts/Editor/LocalizationSyncWindow.cs:83-94 | a header cell after the key column has a language column exactly when it is not blank; the columns keep header order |
| LocalizationSync.InitTablesShape | Assets/Scripts/Editor/LocalizationSyncWindow.cs:99-101 | the tables start out one per distinct code (ignoring case) and empty, each named after the first spelling of its code |
| LocalizationSync.CellWrites | Assets/Scripts/Editor/LocalizationSyncWindow.cs:111-120 | a row writes under its own key, at most once per column, only to the columns' tables, each write being a reached column's code and cell, and writes nothing exactly when it reaches no column |
| LocalizationSync.RowWrites | Assets/Scripts/Editor/LocalizationSyncWindow.cs:106-120 | a row whose trimmed key is empty writes nothing; every write uses the row's non-empty key |
| LocalizationSync.ParseRows | Assets/Scripts/Editor/LocalizationSyncWindow.cs:103-105 | one field list per data line, each with at least one field |
| LocalizationSync.ParseRowsAt | Assets/Scripts/Editor/LocalizationSyncWindow.cs:103-115 | row i is data line i split at the delimiter with every field trimmed |
| LocalizationSync.DataWrites | Assets/Scripts/Editor/LocalizationSyncWindow.cs:103-121 | the data rows only write non-empty keys, and only to the tables of the language columns |
| LocalizationSync.Put | Assets/Scripts/Editor/LocalizationSyncWindow.cs:113-118 | one assignment sets one entry of the table found ignoring case (a missing table is created under that spelling) and leaves every other table alone |
| LocalizationSync.ApplyWrites | Assets/Scripts/Editor/LocalizationSyncWindow.cs:111-120 | the assignments never drop a table or rename one |
| LocalizationSync.ApplyWritesKeys | Assets/Scripts/Editor/LocalizationSyncWindow.cs:116-118 | the assignments add exactly the tables they reach |
| LocalizationSync.ApplyWritesLastWriteWins | Assets/Scripts/Editor/LocalizationSyncWindow.cs:103-121 | after the assignments, an entry holds the value of the last assignment to it; an entry no assignment touches is as before |
| LocalizationSync.TablesPerColumnCode | Assets/Scripts/Editor/LocalizationSyncWindow.cs:99-121 | assignments to the columns' tables leave exactly one table per column code |
| LocalizationSync.FreshTablesLastWriteWins | Assets/Scripts/Editor/LocalizationSyncWindow.cs:99-121 | each table is named after its code's first spelling and holds exactly the assigned entries, each with its last value |
| LocalizationSync.ImportTables | Assets/Scripts/Editor/LocalizationSyncWindow.cs:99-121 | the row loop on fresh tables holds the rows' assignments, last value winning, and describes each entry by the cell of the last row that assigns it |
| LocalizationSync.RowCell | Assets/Scripts/Editor/LocalizationSyncWindow.cs:111-119 | the cell a row gives a table exists exactly when the row reaches a column of that code, and is the cell of the last such column |
| LocalizationSync.LastRowCell | Assets/Scripts/Editor/LocalizationSyncWindow.cs:103-121 | the value an entry ends with exists exactly when some row assigns it, and is the cell of the last row that does |
| LocalizationSync.LastWriteConcat | Assets/Scripts/Editor/LocalizationSyncWindow.cs:103-121 | the last assignment to an entry in two runs of assignments is the second run's, when it has one |
| LocalizationSync.CellWritesLastColumn | Assets/Scripts/Editor/LocalizationSyncWindow.cs:111-119 | one row's assignments leave each entry with the row's cell for it: the last column of that code the row reaches |
| LocalizationSync.RowWritesLastCell | Assets/Scripts/Editor/LocalizationSyncWindow.cs:106-119 | a row assigns an entry only when its trimmed key is that key and not empty, and then with its cell for the table |
| LocalizationSync.DataWritesLastRow | Assets/Scripts/Editor/LocalizationSyncWindow.cs:103-121 | the data rows' assignments leave each entry with the cell of the last row that assigns it |
| LocalizationSync.LastWritesCells | Assets/Scripts/Editor/LocalizationSyncWindow.cs:103-121 | tables holding the rows' last assignments hold, per entry, exactly the cell of the last row that assigns it |
| LocalizationSync.BuildTables | Assets/Scripts/Editor/LocalizationSyncWindow.cs:60-121 | the import fails on a null or blank URL, on fewer than two lines, on a header with fewer than two cells or whose first cell is not `key` (ignoring case), and on a header without language columns; each failure happens exactly in its case. Otherwise it writes one table per column code (named after the first spelling) in which an entry exists exactly when a data row with that trimmed key reaches a column of that code, and holds the trimmed cell of the last such row, from the last such column that row reaches |
| LocalizationSync.HeaderAliasExamples | Assets/Scripts/Editor/LocalizationSyncWindow.cs:18-32 | with the program's alias table, `English` gives `en`, `ZH_CN` gives `zh-Hans`, and an unknown header is its own code |

## Left out

- **I/O, the Unity runtime and logging.** None of this is modelled. That
  covers `Resources.Load`, JSON parsing, `PlayerPrefs` (modelled as one stored
  string), `WebClient`, file writing, `Debug.Log*` text, `DontDestroyOnLoad`,
  `AssetDatabase` and the editor GUI. Each is either a parameter (the language
  loader, the downloaded lines, the spawn that `Instantiate` returns) or an
  effect value in a trace.
- **`SplitLines` of the sheet import.** The import takes the list of lines
  directly. `StringReader.ReadLine` is a library routine.
- **Unicode in string handling.** Case folding and trimming are ASCII-only.
  `ToLowerInvariant`, `OrdinalIgnoreCase` and `char.IsWhiteSpace` also cover
  non-ASCII letters and spaces. So a non-ASCII header alias matches only in
  the lower-case spelling it is written in.
- **`LocalizationService.Format`.** It calls `string.Format`, a library
  formatter.
- **The resources folder argument.** It only builds a `Resources.Load` path.
- **`IsNullOrEmpty(code)` in `SetLanguage`.** This check cannot fire, because
  `ToIsoCode` never returns null or "".
- **`row.Count == 0` in the sheet import.** This check cannot fire, because
  `SplitRow` always returns at least one field.
- **The `TryGetValue` miss in the import's row loop.** It cannot happen,
  because every column's table is created first. `Put` still models it.
- **Handlers that change the bus while it publishes.** The C# `foreach`
  throws `InvalidOperationException` at its next step only when a handler
  adds to the list being walked, or actually removes a handler from it.
  Changes to other event types' lists, and removals of absent handlers, do
  not disturb it. The model does not let handlers change the table.
- **Threads and the `async void` scheduler.** The scene loader is a step
  machine whose steps the caller orders. Exceptions from the scene host other
  than cancellation (the "Error loading" log) are not modelled.
- **Floating-point progress.** It is a `real` that is passed through unchanged.
- **The `LanguageId` enum file.** It is not part of this model. Its five
  members are inferred from `ToIsoCode` and `FromIsoCode`, with English as the
  enum's default value.
- **MonoBehaviour hooks that only wire things up.** `UiManager.OnEnable` and
  `Awake`, `SceneLoader.Awake` and `SubscribeEvents`, and `SetAnchors` are not
  modelled as members. Their effects are the initial bus table, the anchors
  field and the factory.
- **The audio manager, concrete views and presenters, `CanvasHub`, and the
  other installers.** These are outside the core. A presenter is its class and
  its view.
- **A null text passed to `LocalizationRegistry.Add`.** `HashSet` accepts null,
  and the `Refresh` call would then throw. Texts register themselves with
  `this`, so texts are plain ids here.
- **`ServiceLocator.Get` casting a registered value to a different type.**
  The `as T` cast can return null when the value has another type. Services
  are keyed by their type, so the model stores each value under that type.
- **The alias table in `BuildTables`.** It is a parameter. The program's table
  is the constant `HeaderAliases`, and `HeaderAliasExamples` evaluates lookups
  in it.
- Installers.InstallLoop: the `ServiceLocator.Instance` reads at
  ServicesInstaller.cs:31 and 44 create the singleton on first use. The
  install and uninstall loops take the registry as given instead;
  `ServiceLocator.GetInstance` models that first read on its own.
- EventBus.Publish: a null delegate in a handler list is skipped by `?.Invoke`
  at EventBus.cs:31. Handlers are plain ids here and are never null, so that
  skip is not modelled.
- LocalizationSync.QuotesAreConsumed: its hypothesis rules out two adjacent
  quote characters anywhere in the row, also outside quotes (as in `a""b`).
  The narrower claim "only a doubled quote inside quotes puts a quote into a
  field" is not proved.
- SceneLoader.BeginLoad: handlers of the scene events are not run. In the C#
  code, a SceneLoadStarted handler runs synchronously inside `Publish`
  (SceneLoader.cs:115) and could publish a cancelling LoadSceneRequest. The
  outer load would then publish Canceled at its first check, with no
  progress. Such re-entrant requests are outside the model, which is why
  `BeginLoad` requires an uncancelled token.
- SceneLoader.Tick: the progress a non-activating load reports once the host
  has finished loading it is taken to be 0.9 (`ActivationPending`). That is
  Unity's documented value for `allowSceneActivation = false`; the engine
  itself is outside the model, so only this value is assumed.

=== FILE: collections.dfy ===
/** Sequence helpers that stand for .NET collection behaviour. */
module Collections {

  /** `order` lists every element of `s` exactly once: the contract of
      enumerating a `Dictionary` or `HashSet`, whose order .NET leaves
      unspecified. */
  ghost predicate Enumerates<T>(order: seq<T>, s: set<T>) {
    && (forall i, j :: 0 <= i < j < |order| ==> order[i] != order[j])
    && multiset(order) == multiset(s)
  }

  /** Index of the first occurrence of `x` in `s`. */
  function FirstIndex<T(==)>(s: seq<T>, x: T): (i: nat)
    requires x in s
    ensures i < |s| && s[i] == x && x !in s[..i]
  {
    if s[0] == x then 0 else 1 + FirstIndex(s[1..], x)
  }

  /** `List<T>.Remove(x)`: deletes the first element equal to `x`, if any. */
  function RemoveFirst<T(==)>(s: seq<T>, x: T): (r: seq<T>)
    ensures x !in s ==> r == s
    ensures |r| == if x in s then |s| - 1 else |s|
    decreases |s|
  {
    if |s| == 0 then s
    else if s[0] == x then s[1..]
    else [s[0]] + RemoveFirst(s[1..], x)
  }

  /** What `RemoveFirst` removes: exactly the element at the first index
      holding `x`; everything before and after it keeps its order. */
  lemma {:induction false} RemoveFirstAtFirstIndex<T>(s: seq<T>, x: T)
    requires x in s
    ensures RemoveFirst(s, x) == s[..FirstIndex(s, x)] + s[FirstIndex(s, x) + 1..]
    decreases |s|
  {
    if s[0] != x {
      assert x in s[1..] by {
        assert s == [s[0]] + s[1..];
      }
      RemoveFirstAtFirstIndex(s[1..], x);
      var i := FirstIndex(s[1..], x);
      assert s[..i + 1] == [s[0]] + s[1..][..i];
      assert s[i + 2..] == s[1..][i + 1..];
    }
  }

  /** Every position of an enumeration holds an element of the set. */
  lemma EnumeratedAreMembers<T>(order: seq<T>, s: set<T>)
    requires Enumerates(order, s)
    ensures forall i :: 0 <= i < |order| ==> order[i] in s
  {
    forall i | 0 <= i < |order| ensures order[i] in s {
      assert order[i] in multiset(order);
    }
  }
}

=== FILE: event_bus.dfy ===
/** The typed publish/subscribe bus. The C# class keeps its subscriber table
    in a static field, so every bus instance reads and writes the same table;
    the model therefore has exactly one `Table` value, threaded through every
    call. Handlers are opaque ids compared by equality (delegate equality). */
module EventBus {
  import opened Wrappers
  import Collections

  /** The exact runtime type of an event, the dispatch key. */
  type TypeTag = string

  type HandlerId = nat

  /** Event type to handlers in subscription order. A type that was never
      subscribed has no list; a list, once created, is never dropped. */
  type Table = map<TypeTag, seq<HandlerId>>

  /** One handler invocation made by `Publish`. */
  datatype Delivery<E> = Delivery(handler: HandlerId, payload: E)

  /** The handlers `Publish` would call for `tag`, in order. */
  function Handlers(t: Table, tag: TypeTag): seq<HandlerId> {
    if tag in t then t[tag] else []
  }

  /** `Subscribe<T>(callback)`: appends at the end of the type's list,
      creating the list on first use; no de-duplication. */
  function Subscribe(t: Table, tag: TypeTag, h: HandlerId): (r: Table)
    ensures tag in r && r[tag] == Handlers(t, tag) + [h]
    ensures r - {tag} == t - {tag}
  {
    if tag in t then t[tag := t[tag] + [h]] else t[tag := [h]]
  }

  /** `Unsubscribe<T>(callback)`: removes the first equal entry of the
      type's list; nothing happens when the type or the handler is absent. */
  function Unsubscribe(t: Table, tag: TypeTag, h: HandlerId): (r: Table)
    ensures h !in Handlers(t, tag) ==> r == t
    ensures tag in t ==> tag in r && |r[tag]| == |t[tag]| - (if h in t[tag] then 1 else 0)
    ensures Handlers(r, tag) == Collections.RemoveFirst(Handlers(t, tag), h)
    ensures r - {tag} == t - {tag}
    ensures r.Keys == t.Keys
  {
    if tag in t then t[tag := Collections.RemoveFirst(t[tag], h)] else t
  }

  /** The invocations of one handler list with one payload, in list order. */
  function Deliver<E>(hs: seq<HandlerId>, e: E): (r: seq<Delivery<E>>)
    ensures |r| == |hs|
    ensures forall i :: 0 <= i < |hs| ==> r[i].handler == hs[i] && r[i].payload == e
    decreases |hs|
  {
    if |hs| == 0 then [] else [Delivery(hs[0], e)] + Deliver(hs[1..], e)
  }

  /** `Publish<T>(eventData)` when no handler throws: every entry of the
      list for the event's type is invoked once, in subscription order;
      a type with no list invokes nobody. The table is read, not changed. */
  function Publish<E>(t: Table, tag: TypeTag, e: E): (r: seq<Delivery<E>>)
    ensures tag !in t ==> r == []
    ensures |r| == |Handlers(t, tag)|
    ensures forall i :: 0 <= i < |r| ==> r[i] == Delivery(Handlers(t, tag)[i], e)
  {
    Deliver(Handlers(t, tag), e)
  }

  /** What a publish did: the invocations made, and whether an exception
      escaped from a handler (and from which one). */
  datatype Dispatch<E> = Dispatch(delivered: seq<Delivery<E>>, outcome: Outcome<HandlerId>)

  /** Index of the first handler of `hs` that throws, or `|hs|`. */
  function FirstFaulty(hs: seq<HandlerId>, faulty: set<HandlerId>): (k: nat)
    ensures k <= |hs|
    ensures forall i :: 0 <= i < k ==> hs[i] !in faulty
    ensures k < |hs| ==> hs[k] in faulty
    decreases |hs|
  {
    if |hs| == 0 then 0
    else if hs[0] in faulty then 0
    else 1 + FirstFaulty(hs[1..], faulty)
  }

  /** `Publish<T>(eventData)` when the handlers in `faulty` throw. The loop
      has no catch: the first throwing handler ends delivery and its
      exception reaches the publisher. */
  function PublishFaulting<E>(t: Table, tag: TypeTag, e: E, faulty: set<HandlerId>): (r: Dispatch<E>)
    ensures var hs := Handlers(t, tag);
      var k := FirstFaulty(hs, faulty);
      if k == |hs| then r == Dispatch(Publish(t, tag, e), Pass)
      else r == Dispatch(Publish(t, tag, e)[..k + 1], Fail(hs[k]))
  {
    PublishFrom(Handlers(t, tag), e, faulty)
  }

  /** Delivery over one list with faults, invocation by invocation. */
  function PublishFrom<E>(hs: seq<HandlerId>, e: E, faulty: set<HandlerId>): (r: Dispatch<E>)
    ensures var k := FirstFaulty(hs, faulty);
      if k == |hs| then r == Dispatch(Deliver(hs, e), Pass)
      else r == Dispatch(Deliver(hs, e)[..k + 1], Fail(hs[k]))
    decreases |hs|
  {
    if |hs| == 0 then Dispatch([], Pass)
    else if hs[0] in faulty then Dispatch([Delivery(hs[0], e)], Fail(hs[0]))
    else
      var rest := PublishFrom(hs[1..], e, faulty);
      Dispatch([Delivery(hs[0], e)] + rest.delivered, rest.outcome)
  }

  /** Subscribing handlers one after another. */
  function SubscribeAll(t: Table, tag: TypeTag, hs: seq<HandlerId>): Table
    decreases |hs|
  {
    if |hs| == 0 then t else SubscribeAll(Subscribe(t, tag, hs[0]), tag, hs[1..])
  }

  /** Subscribing `hs` in turn appends them, in order, to the type's list
      and leaves every other type alone. */
  lemma {:induction false} SubscribeAllAppends(t: Table, tag: TypeTag, hs: seq<HandlerId>)
    ensures tag in SubscribeAll(t, tag, hs) || |hs| == 0
    ensures Handlers(SubscribeAll(t, tag, hs), tag) == Handlers(t, tag) + hs
    ensures SubscribeAll(t, tag, hs) - {tag} == t - {tag}
    decreases |hs|
  {
    if |hs| > 0 {
      var t1 := Subscribe(t, tag, hs[0]);
      SubscribeAllAppends(t1, tag, hs[1..]);
      assert Handlers(t, tag) + hs == Handlers(t, tag) + [hs[0]] + hs[1..];
    }
  }

  /** Dispatch order: after N subscriptions to a type on a table without
      that type, one publish invokes the N handlers once each, in
      subscription order, even when a handler was subscribed twice. */
  lemma DispatchOrder<E>(t: Table, tag: TypeTag, hs: seq<HandlerId>, e: E)
    requires tag !in t
    ensures var r := Publish(SubscribeAll(t, tag, hs), tag, e);
      |r| == |hs| && forall i :: 0 <= i < |hs| ==> r[i] == Delivery(hs[i], e)
  {
    SubscribeAllAppends(t, tag, hs);
  }

  /** Removing the first `h` from a list that ends with an appended `h`. */
  lemma {:induction false} RemoveFirstAfterAppend(hs: seq<HandlerId>, h: HandlerId)
    ensures Collections.RemoveFirst(hs + [h], h)
         == if h in hs then Collections.RemoveFirst(hs, h) + [h] else hs
    decreases |hs|
  {
    if |hs| > 0 {
      assert (hs + [h])[1..] == hs[1..] + [h];
      if hs[0] != h {
        RemoveFirstAfterAppend(hs[1..], h);
        assert h in hs <==> h in hs[1..] by {
          assert hs == [hs[0]] + hs[1..];
        }
      }
    }
  }

  /** Subscribe then unsubscribe of a handler not yet in the list gives the
      list back exactly; when the handler was already there, its earliest
      copy is the one removed and the new copy stays at the end. */
  lemma SubscribeUnsubscribeRoundTrip(t: Table, tag: TypeTag, h: HandlerId)
    ensures var r := Unsubscribe(Subscribe(t, tag, h), tag, h);
      && Handlers(r, tag) == (if h in Handlers(t, tag)
                             then Collections.RemoveFirst(Handlers(t, tag), h) + [h]
                             else Handlers(t, tag))
      && r - {tag} == t - {tag}
      && (tag in t && h !in t[tag] ==> r == t)
  {
    RemoveFirstAfterAppend(Handlers(t, tag), h);
  }

  /** Unsubscribing a handler that is not subscribed never changes the
      table, whatever the type. */
  lemma UnsubscribeAbsentIsNoOp(t: Table, tag: TypeTag, h: HandlerId)
    requires h !in Handlers(t, tag)
    ensures Unsubscribe(t, tag, h) == t
    ensures Unsubscribe(Unsubscribe(t, tag, h), tag, h) == t
  {
  }
}

=== FILE: installers.dfy ===
/** `ServicesInstaller`: runs the installers of its `installersInOrder`
    array over the service registry on `Awake`, and uninstalls them on
    `OnDestroy`. Each installer is abstracted as the registry operations its
    `Install` and `Uninstall` perform. */
module Installers {
  import opened Wrappers
  import SL = ServiceLocator

  datatype LocatorOp = RegisterOp(t: SL.ServiceType, x: SL.Instance) | UnregisterOp(t: SL.ServiceType)

  /** An installer's identity and the registry operations of its two calls. */
  datatype Actions = Actions(id: nat, install: seq<LocatorOp>, uninstall: seq<LocatorOp>)

  /** One slot of the `MonoBehaviour[]` array. */
  datatype Component =
    | NullEntry                        // an empty slot
    | Plain(name: string)              // a behaviour that is no installer at all
    | BareInstaller(actions: Actions)  // implements IInstaller, does not derive from Installer
    | DerivedInstaller(actions: Actions) // derives from the abstract Installer class
  {
    predicate ImplementsIInstaller() { BareInstaller? || DerivedInstaller? }
  }

  datatype InstallEvent = Installed(id: nat) | SkippedWarning(name: string)

  datatype InstallRun = InstallRun(locator: SL.Locator, log: seq<InstallEvent>)

  /** The exception that ends an `Uninstall` loop early. */
  datatype Fault = NullReference | InvalidCast

  datatype UninstallRun = UninstallRun(locator: SL.Locator, visited: seq<nat>, outcome: Outcome<Fault>)

  function ApplyOp(l: SL.Locator, op: LocatorOp): SL.Locator {
    match op
    case RegisterOp(t, x) => SL.Register(l, t, x)
    case UnregisterOp(t) => SL.Unregister(l, t)
  }

  function ApplyOps(l: SL.Locator, ops: seq<LocatorOp>): SL.Locator
    decreases |ops|
  {
    if |ops| == 0 then l else ApplyOps(ApplyOp(l, ops[0]), ops[1..])
  }

  /** The installers of an array, in declared order: the slots `Awake`
      calls `Install` on. */
  function InstallersIn(cs: seq<Component>): (r: seq<Actions>)
    decreases |cs|
  {
    if |cs| == 0 then []
    else if cs[0].ImplementsIInstaller() then [cs[0].actions] + InstallersIn(cs[1..])
    else InstallersIn(cs[1..])
  }

  function Ids(acts: seq<Actions>): seq<nat>
    decreases |acts|
  {
    if |acts| == 0 then [] else [acts[0].id] + Ids(acts[1..])
  }

  /** The registry operations of running `Install` on `acts` in order. */
  function InstallOps(acts: seq<Actions>): seq<LocatorOp>
    decreases |acts|
  {
    if |acts| == 0 then [] else acts[0].install + InstallOps(acts[1..])
  }

  /** The registry operations of running `Uninstall` on `acts` in order. */
  function UninstallOps(acts: seq<Actions>): seq<LocatorOp>
    decreases |acts|
  {
    if |acts| == 0 then [] else acts[0].uninstall + UninstallOps(acts[1..])
  }

  function InstalledIds(log: seq<InstallEvent>): seq<nat>
    decreases |log|
  {
    if |log| == 0 then []
    else if log[0].Installed? then [log[0].id] + InstalledIds(log[1..])
    else InstalledIds(log[1..])
  }

  function NullCount(cs: seq<Component>): nat
    decreases |cs|
  {
    if |cs| == 0 then 0 else (if cs[0].NullEntry? then 1 else 0) + NullCount(cs[1..])
  }

  lemma {:induction false} ApplyOpsConcat(l: SL.Locator, a: seq<LocatorOp>, b: seq<LocatorOp>)
    ensures ApplyOps(l, a + b) == ApplyOps(ApplyOps(l, a), b)
    decreases |a|
  {
    if |a| > 0 {
      assert (a + b)[1..] == a[1..] + b;
      ApplyOpsConcat(ApplyOp(l, a[0]), a[1..], b);
    } else {
      assert a + b == b;
    }
  }

  /** The `foreach` of `Awake` over a non-null array: every IInstaller is
      installed in declared order; a non-null non-installer is skipped with
      a warning; a null slot is skipped silently. */
  function InstallLoop(cs: seq<Component>, l: SL.Locator): (r: InstallRun)
    ensures InstalledIds(r.log) == Ids(InstallersIn(cs))
    ensures r.locator == ApplyOps(l, InstallOps(InstallersIn(cs)))
    ensures |r.log| == |cs| - NullCount(cs)
    ensures forall i :: 0 <= i < |r.log| && r.log[i].SkippedWarning? ==> Plain(r.log[i].name) in cs
    decreases |cs|
  {
    if |cs| == 0 then InstallRun(l, [])
    else
      var c := cs[0];
      assert cs == [c] + cs[1..];
      match c
      case NullEntry => InstallLoop(cs[1..], l)
      case Plain(name) =>
        var rest := InstallLoop(cs[1..], l);
        InstallRun(rest.locator, [SkippedWarning(name)] + rest.log)
      case _ =>
        var l1 := ApplyOps(l, c.actions.install);
        var rest := InstallLoop(cs[1..], l1);
        ApplyOpsConcat(l, c.actions.install, InstallOps(InstallersIn(cs[1..])));
        InstallRun(rest.locator, [Installed(c.actions.id)] + rest.log)
  }

  /** `Awake`: a null array installs nothing. */
  function Install(arr: Option<seq<Component>>, l: SL.Locator): (r: InstallRun)
    ensures arr.None? ==> r == InstallRun(l, [])
    ensures arr.Some? ==> InstalledIds(r.log) == Ids(InstallersIn(arr.value))
    ensures arr.Some? ==> r.locator == ApplyOps(l, InstallOps(InstallersIn(arr.value)))
  {
    match arr
    case None => InstallRun(l, [])
    case Some(cs) => InstallLoop(cs, l)
  }

  /** Index of the first slot the `Uninstall` loop cannot call `Uninstall`
      on, or `|cs|`. */
  function FirstNonInstaller(cs: seq<Component>): (k: nat)
    ensures k <= |cs|
    ensures forall i :: 0 <= i < k ==> cs[i].DerivedInstaller?
    ensures k < |cs| ==> !cs[k].DerivedInstaller?
    decreases |cs|
  {
    if |cs| == 0 || !cs[0].DerivedInstaller? then 0 else 1 + FirstNonInstaller(cs[1..])
  }

  /** The `foreach (Installer installer in installersInOrder)` loop of
      `Uninstall`: the explicit cast lets a null slot through and then the
      call throws `NullReferenceException`; any other slot that does not
      derive from `Installer` throws `InvalidCastException`. Slots before the
      failing one are uninstalled in declared order, not reversed. */
  function UninstallLoop(cs: seq<Component>, l: SL.Locator): (r: UninstallRun)
    ensures var k := FirstNonInstaller(cs);
      && r.visited == Ids(InstallersIn(cs[..k]))
      && r.locator == ApplyOps(l, UninstallOps(InstallersIn(cs[..k])))
      && (r.outcome == Pass <==> k == |cs|)
      && (k < |cs| ==> r.outcome == Fail(if cs[k].NullEntry? then NullReference else InvalidCast))
    decreases |cs|
  {
    if |cs| == 0 then UninstallRun(l, [], Pass)
    else
      match cs[0]
      case NullEntry => UninstallRun(l, [], Fail(NullReference))
      case DerivedInstaller(a) =>
        var rest := UninstallLoop(cs[1..], ApplyOps(l, a.uninstall));
        var k := FirstNonInstaller(cs);
        assert cs[..k][1..] == cs[1..][..k - 1];
        ApplyOpsConcat(l, a.uninstall, UninstallOps(InstallersIn(cs[1..][..k - 1])));
        UninstallRun(rest.locator, [a.id] + rest.visited, rest.outcome)
      case _ => UninstallRun(l, [], Fail(InvalidCast))
  }

  /** `Uninstall` (run from `OnDestroy`): a null array throws at once. */
  function Uninstall(arr: Option<seq<Component>>, l: SL.Locator): (r: UninstallRun)
    ensures arr.None? ==> r == UninstallRun(l, [], Fail(NullReference))
    ensures arr.Some? ==> (r.outcome == Pass <==> forall i :: 0 <= i < |arr.value| ==> arr.value[i].DerivedInstaller?)
  {
    match arr
    case None => UninstallRun(l, [], Fail(NullReference))
    case Some(cs) => UninstallLoop(cs, l)
  }

  /** Install and uninstall both walk the array front to back: with two
      installers, the first installed is also the first uninstalled. */
  lemma UninstallInDeclaredOrder(a: Actions, b: Actions, l: SL.Locator)
    ensures Install(Some([DerivedInstaller(a), DerivedInstaller(b)]), l).log == [Installed(a.id), Installed(b.id)]
    ensures Uninstall(Some([DerivedInstaller(a), DerivedInstaller(b)]), l).visited == [a.id, b.id]
  {
    var cs := [DerivedInstaller(a), DerivedInstaller(b)];
    assert cs[1..] == [DerivedInstaller(b)];
    assert cs[1..][1..] == [];
    var l1 := ApplyOps(l, a.install);
    assert InstallLoop(cs[1..], l1).log == [Installed(b.id)];
    assert InstallLoop(cs, l).log == [Installed(a.id)] + InstallLoop(cs[1..], l1).log;
    var u1 := ApplyOps(l, a.uninstall);
    assert UninstallLoop(cs[1..], u1).visited == [b.id] by {
      assert UninstallLoop(cs[1..][1..], ApplyOps(u1, b.uninstall)).visited == [];
    }
    assert UninstallLoop(cs, l).visited == [a.id] + UninstallLoop(cs[1..], u1).visited;
  }

  /** The asymmetry between the two loops: a null slot or a bare IInstaller
      is harmless to `Install` but makes `Uninstall` throw before it reaches
      anything after it, so the services installed later stay registered. */
  lemma UninstallIsStricterThanInstall(a: Actions, b: Actions, l: SL.Locator)
    ensures var cs := [NullEntry, DerivedInstaller(a)];
      && InstalledIds(Install(Some(cs), l).log) == [a.id]
      && Uninstall(Some(cs), l) == UninstallRun(l, [], Fail(NullReference))
    ensures var cs := [BareInstaller(b), DerivedInstaller(a)];
      && InstalledIds(Install(Some(cs), l).log) == [b.id, a.id]
      && Uninstall(Some(cs), l) == UninstallRun(l, [], Fail(InvalidCast))
  {
    var cs1 := [NullEntry, DerivedInstaller(a)];
    assert cs1[1..] == [DerivedInstaller(a)];
    var cs2 := [BareInstaller(b), DerivedInstaller(a)];
    assert cs2[1..] == [DerivedInstaller(a)];
  }
}

=== FILE: localization_registry.dfy ===
/** `LocalizationRegistry`: the static set of localized texts and the
    service they were last refreshed with. Texts and services are opaque
    ids; every `Refresh` call is recorded. */
module LocalizationRegistry {
  import opened Wrappers
  import Collections

  type ItemId = nat

  /** A service reference; `None` is null. */
  type ServiceRef = Option<nat>

  datatype Registry = Registry(items: set<ItemId>, service: ServiceRef)

  /** One `item.Refresh(service)` call. */
  datatype Refresh = Refresh(item: ItemId, service: ServiceRef)

  datatype Update = Update(registry: Registry, refreshes: seq<Refresh>)

  /** `SetService`: replaces the stored service, refreshes nothing. */
  function SetService(r: Registry, s: ServiceRef): (u: Update)
    ensures u.registry.items == r.items && u.registry.service == s
    ensures u.refreshes == []
  {
    Update(r.(service := s), [])
  }

  /** `Add`: a new item is inserted and refreshed once with the stored
      service; an item already there changes nothing. */
  function Add(r: Registry, item: ItemId): (u: Update)
    ensures u.registry.items == r.items + {item} && u.registry.service == r.service
    ensures item in r.items ==> u == Update(r, [])
    ensures item !in r.items ==> u.refreshes == [Refresh(item, r.service)]
  {
    if item in r.items then Update(r, [])
    else Update(r.(items := r.items + {item}), [Refresh(item, r.service)])
  }

  /** `Remove`: deletes the item if present, refreshes nothing. */
  function Remove(r: Registry, item: ItemId): (u: Update)
    ensures u.registry.items == r.items - {item} && u.registry.service == r.service
    ensures item !in r.items ==> u.registry == r
    ensures u.refreshes == []
  {
    Update(r.(items := r.items - {item}), [])
  }

  function RefreshEach(order: seq<ItemId>, s: ServiceRef): (rs: seq<Refresh>)
    ensures |rs| == |order|
    ensures forall i :: 0 <= i < |order| ==> rs[i] == Refresh(order[i], s)
    decreases |order|
  {
    if |order| == 0 then [] else [Refresh(order[0], s)] + RefreshEach(order[1..], s)
  }

  /** `RefreshAll(s)`: stores `s` and refreshes every registered item with
      it, once each, in the set's enumeration order `order`. */
  function RefreshAll(r: Registry, s: ServiceRef, order: seq<ItemId>): (u: Update)
    requires Collections.Enumerates(order, r.items)
    ensures u.registry == Registry(r.items, s)
    ensures |u.refreshes| == |r.items|
    ensures forall i :: 0 <= i < |u.refreshes| ==> u.refreshes[i].service == s && u.refreshes[i].item in r.items
    ensures forall x :: x in r.items ==> exists i :: 0 <= i < |u.refreshes| && u.refreshes[i].item == x
    ensures forall i, j :: 0 <= i < j < |u.refreshes| ==> u.refreshes[i].item != u.refreshes[j].item
  {
    Collections.EnumeratedAreMembers(order, r.items);
    assert |order| == |r.items| by {
      assert |multiset(order)| == |order|;
      assert |multiset(r.items)| == |r.items|;
    }
    var rs := RefreshEach(order, s);
    assert forall x :: x in r.items ==> x in multiset(order);
    Update(r.(service := s), rs)
  }

  /** Texts added later are refreshed with the service given to the most
      recent `SetService` or `RefreshAll`. */
  lemma AddUsesLatestService(r: Registry, s: ServiceRef, t: ServiceRef, order: seq<ItemId>, item: ItemId)
    requires Collections.Enumerates(order, r.items)
    requires item !in r.items
    ensures Add(SetService(r, s).registry, item).refreshes == [Refresh(item, s)]
    ensures Add(RefreshAll(r, t, order).registry, item).refreshes == [Refresh(item, t)]
  {
  }

  /** Removing a text just added restores the registry; adding it back
      refreshes it again, with the stored service. */
  lemma AddRemoveRoundTrip(r: Registry, item: ItemId)
    requires item !in r.items
    ensures Remove(Add(r, item).registry, item).registry == r
    ensures Add(Remove(Add(r, item).registry, item).registry, item).refreshes == [Refresh(item, r.service)]
  {
  }

  /** Adding is idempotent: a second `Add` of the same text changes nothing
      and refreshes nothing. */
  lemma AddIsIdempotent(r: Registry, item: ItemId)
    ensures Add(Add(r, item).registry, item) == Update(Add(r, item).registry, [])
  {
  }
}

=== FILE: localization_service.dfy ===
/** `LocalizationService`: the language codes, key lookup with a fallback
    table, and the `SetLanguage` state machine. Loading a language file
    (Resources + JSON) is abstracted as a function from code to table, where
    `None` stands for a missing, empty or unparsable file; PlayerPrefs is the
    one stored string under the service's preference key. */
module LocalizationService {
  import opened Wrappers
  import Text

  /** The five languages of the `LanguageId` enum, plus any other value the
      enum variable may hold. */
  datatype LanguageId = English | Spanish | Italian | French | Russian | UndeclaredLanguage(raw: UndeclaredLanguageValue)

  /** The integers no `LanguageId` member has, the five members being
      numbered 0 to 4 in declaration order. */
  type UndeclaredLanguageValue = x: int | x < 0 || x > 4 witness -1

  /** Unity's `SystemLanguage`: the five languages the service knows, and
      the rest of the enum by name. */
  datatype SystemLanguage =
    | SystemEnglish | SystemSpanish | SystemItalian | SystemFrench | SystemRussian
    | OtherSystemLanguage(name: string)

  /** A language table; a JSON null value reads like "" everywhere. */
  type Table = map<string, string>

  type LanguageLoader = string -> Option<Table>

  const PrefKey: string := "Localization.LanguageCode"

  const IsoCodes: set<string> := {"en", "es", "it", "fr", "ru"}

  /** `ToIsoCode`: the two-letter code of a language, "en" for any value
      outside the enum. */
  function ToIsoCode(id: LanguageId): (r: string)
    ensures r in IsoCodes
    ensures id.UndeclaredLanguage? ==> r == "en"
  {
    match id
    case English => "en"
    case Spanish => "es"
    case Italian => "it"
    case French => "fr"
    case Russian => "ru"
    case UndeclaredLanguage(_) => "en"
  }

  /** `FromIsoCode`: the language of a code, ignoring case; null and any
      unlisted code give null. */
  function FromIsoCode(code: Option<string>): (r: Option<LanguageId>)
    ensures code.None? ==> r.None?
    ensures code.Some? ==> (r.Some? <==> Text.Lower(code.value) in IsoCodes)
    ensures r.Some? ==> !r.value.UndeclaredLanguage? && ToIsoCode(r.value) == Text.Lower(code.value)
  {
    var c := Text.Lower(code.GetOr(""));
    Text.LowerIsIdempotent(code.GetOr(""));
    if c == "en" then Some(English)
    else if c == "es" then Some(Spanish)
    else if c == "it" then Some(Italian)
    else if c == "fr" then Some(French)
    else if c == "ru" then Some(Russian)
    else None
  }

  /** `FromIsoCode` ignores case: a code and its lower-case form name the
      same language. */
  lemma FromIsoCodeIgnoresCase(code: string)
    ensures FromIsoCode(Some(code)) == FromIsoCode(Some(Text.Lower(code)))
  {
    Text.LowerIsIdempotent(code);
  }

  /** The code round trip holds for all five declared languages. */
  lemma IsoRoundTrip(id: LanguageId)
    requires !id.UndeclaredLanguage?
    ensures FromIsoCode(Some(ToIsoCode(id))) == Some(id)
  {
    assert Text.Lower(ToIsoCode(id)) == ToIsoCode(id);
  }

  /** `SetLanguage(SystemLanguage)`'s mapping: the five known languages map
      to themselves, every other one to English. */
  function FromSystemLanguage(sys: SystemLanguage): (r: LanguageId)
    ensures !r.UndeclaredLanguage?
    ensures sys == SystemEnglish ==> r == English
    ensures sys == SystemSpanish ==> r == Spanish
    ensures sys == SystemItalian ==> r == Italian
    ensures sys == SystemFrench ==> r == French
    ensures sys == SystemRussian ==> r == Russian
    ensures sys.OtherSystemLanguage? ==> r == English
  {
    match sys
    case SystemEnglish => English
    case SystemSpanish => Spanish
    case SystemItalian => Italian
    case SystemFrench => French
    case SystemRussian => Russian
    case OtherSystemLanguage(_) => English
  }

  /** The service's fields; `currentCode` is null until the first
      `SetLanguage`, `hasBus` says whether an event bus was given. */
  datatype Service = Service(
    defaultId: LanguageId,
    currentId: LanguageId,
    currentCode: Option<string>,
    entries: Table,
    fallback: Table,
    hasBus: bool)

  datatype LanguageChanged = LanguageChanged(id: LanguageId, code: string)

  /** A call's effect: the new service, the stored preference, the events
      published. */
  datatype Change = Change(service: Service, prefs: Option<string>, published: seq<LanguageChanged>)

  /** A non-empty value of `key` in `t`. */
  predicate HasText(t: Table, key: string) {
    key in t && t[key] != ""
  }

  /** `Get(key)`: "" for a null or empty key; otherwise the first non-empty
      value of the current table, then of the fallback table; otherwise
      the placeholder `"#" + key`. */
  function Get(s: Service, key: Option<string>): (r: string)
    ensures key.None? || key == Some("") ==> r == ""
    ensures key.Some? && key.value != "" ==>
              && (HasText(s.entries, key.value) ==> r == s.entries[key.value])
              && (!HasText(s.entries, key.value) && HasText(s.fallback, key.value) ==> r == s.fallback[key.value])
              && (!HasText(s.entries, key.value) && !HasText(s.fallback, key.value) ==> r == "#" + key.value)
  {
    match key
    case None => ""
    case Some(k) =>
      if k == "" then ""
      else if HasText(s.entries, k) then s.entries[k]
      else if HasText(s.fallback, k) then s.fallback[k]
      else "#" + k
  }

  /** `TryGet`'s two results: the return value and the `out` value. */
  datatype Found = Found(ok: bool, value: Option<string>)

  /** `Dictionary.TryGetValue(null)` throws. */
  datatype LookupError = ArgumentNull

  /** `TryGet(key, out value)`: the same search as `Get` without the
      placeholder; a miss gives false and a null value. */
  function TryGet(s: Service, key: Option<string>): (r: Result<Found, LookupError>)
    ensures key.None? <==> r.Err?
    ensures r.Ok? ==> (r.value.ok <==> HasText(s.entries, key.value) || HasText(s.fallback, key.value))
    ensures r.Ok? && !r.value.ok ==> r.value.value.None?
    ensures r.Ok? && r.value.ok ==> r.value.value.Some? && r.value.value.value != ""
  {
    match key
    case None => Err(ArgumentNull)
    case Some(k) =>
      if HasText(s.entries, k) then Ok(Found(true, Some(s.entries[k])))
      else if HasText(s.fallback, k) then Ok(Found(true, Some(s.fallback[k])))
      else Ok(Found(false, None))
  }

  /** For a non-empty key, `TryGet` succeeds with exactly `Get`'s value, and
      fails with a null value exactly when neither table has text for the
      key, which is when `Get` falls back to the placeholder. */
  lemma TryGetAgreesWithGet(s: Service, key: string)
    requires key != ""
    ensures var g := Get(s, Some(key));
      var t := TryGet(s, Some(key)).value;
      && (t.ok ==> t.value == Some(g))
      && (!t.ok <==> !HasText(s.entries, key) && !HasText(s.fallback, key))
      && (!t.ok ==> g == "#" + key && t.value.None?)
  {
  }

  /** `LoadLanguage(code)`: clears the table, then fills it from the file;
      false when the file is missing or unparsable (the table stays empty). */
  function LoadLanguage(load: LanguageLoader, code: string): (r: (bool, Table))
    ensures r.0 <==> load(code).Some?
    ensures r.1 == if r.0 then load(code).value else map[]
  {
    match load(code)
    case Some(t) => (true, t)
    case None => (false, map[])
  }

  /** `SetLanguage(LanguageId)`. */
  function SetLanguage(s: Service, prefs: Option<string>, load: LanguageLoader, id: LanguageId): (r: Change)
    // the same language with a loaded table: nothing at all happens
    ensures s.currentId == id && |s.entries| > 0 ==> r == Change(s, prefs, [])
    // otherwise: the code matches the id, is persisted once, announced once
    ensures !(s.currentId == id && |s.entries| > 0) ==>
              && r.service.currentCode == Some(ToIsoCode(r.service.currentId))
              && r.prefs == r.service.currentCode
              && r.published == (if s.hasBus then [LanguageChanged(r.service.currentId, ToIsoCode(r.service.currentId))] else [])
              && r.service.fallback == s.fallback && r.service.defaultId == s.defaultId
              // the requested table loaded: it becomes current
              && (load(ToIsoCode(id)).Some? ==> r.service.currentId == id && r.service.entries == load(ToIsoCode(id)).value)
              // it did not: the default language, loaded or not
              && (load(ToIsoCode(id)).None? ==>
                    && r.service.currentId == s.defaultId
                    && r.service.entries == load(ToIsoCode(s.defaultId)).GetOr(map[]))
  {
    var code := ToIsoCode(id);
    if s.currentId == id && |s.entries| > 0 then Change(s, prefs, [])
    else
      var (ok, table) := LoadLanguage(load, code);
      var (id', code', table') :=
        if ok then (id, code, table)
        else
          var defCode := ToIsoCode(s.defaultId);
          (s.defaultId, defCode, LoadLanguage(load, defCode).1);
      var s' := s.(currentId := id', currentCode := Some(code'), entries := table');
      Change(s', Some(code'), if s.hasBus then [LanguageChanged(id', code')] else [])
  }

  /** `SetLanguage(SystemLanguage)`. */
  function SetSystemLanguage(s: Service, prefs: Option<string>, load: LanguageLoader, sys: SystemLanguage): (r: Change)
    ensures sys == SystemEnglish ==> r == SetLanguage(s, prefs, load, English)
    ensures sys == SystemSpanish ==> r == SetLanguage(s, prefs, load, Spanish)
    ensures sys == SystemItalian ==> r == SetLanguage(s, prefs, load, Italian)
    ensures sys == SystemFrench ==> r == SetLanguage(s, prefs, load, French)
    ensures sys == SystemRussian ==> r == SetLanguage(s, prefs, load, Russian)
    ensures sys.OtherSystemLanguage? ==> r == SetLanguage(s, prefs, load, English)
  {
    SetLanguage(s, prefs, load, FromSystemLanguage(sys))
  }

  /** The constructor: loads the fallback table of the default language,
      reads the stored code (the default code when none is stored), and
      sets the language it names (the default one when it names none). The
      enum's default value, English, is the initial current id; the tables
      start empty, so that value never matters. */
  function New(defaultId: LanguageId, prefs: Option<string>, load: LanguageLoader, hasBus: bool): (r: Change)
    ensures r.service.currentCode == Some(ToIsoCode(r.service.currentId))
    ensures r.prefs == r.service.currentCode
    ensures r.service.fallback == load(ToIsoCode(defaultId)).GetOr(map[])
    ensures r.service.defaultId == defaultId && r.service.hasBus == hasBus
    // a stored code naming a language whose file loads: that language
    ensures prefs.Some? && FromIsoCode(prefs).Some? && load(ToIsoCode(FromIsoCode(prefs).value)).Some? ==>
              r.service.currentId == FromIsoCode(prefs).value
              && r.service.entries == load(ToIsoCode(FromIsoCode(prefs).value)).value
    // a stored language whose file does not load, or an unknown stored code: the default
    ensures prefs.Some? && FromIsoCode(prefs).Some? && load(ToIsoCode(FromIsoCode(prefs).value)).None? ==>
              r.service.currentId == defaultId
    ensures prefs.Some? && FromIsoCode(prefs).None? ==> r.service.currentId == defaultId
    // nothing stored: the default language's code
    ensures prefs.None? ==> ToIsoCode(r.service.currentId) == ToIsoCode(defaultId)
    ensures prefs.None? && !defaultId.UndeclaredLanguage? ==> r.service.currentId == defaultId
    ensures r.published == if hasBus then [LanguageChanged(r.service.currentId, ToIsoCode(r.service.currentId))] else []
  {
    var defaultCode := ToIsoCode(defaultId);
    var fallback := load(defaultCode).GetOr(map[]);
    var saved := prefs.GetOr(defaultCode);
    var savedId := FromIsoCode(Some(saved)).GetOr(defaultId);
    DefaultCodeNamesDefault(defaultId);
    SetLanguage(Service(defaultId, English, None, map[], fallback, hasBus), prefs, load, savedId)
  }

  /** The language the default's own code names has the default's code, and
      is the default itself when that is declared. */
  lemma DefaultCodeNamesDefault(defaultId: LanguageId)
    ensures ToIsoCode(FromIsoCode(Some(ToIsoCode(defaultId))).GetOr(defaultId)) == ToIsoCode(defaultId)
    ensures !defaultId.UndeclaredLanguage? ==> FromIsoCode(Some(ToIsoCode(defaultId))).GetOr(defaultId) == defaultId
  {
    if !defaultId.UndeclaredLanguage? {
      IsoRoundTrip(defaultId);
    }
  }

  /** The constructor restores a stored language: with the code of a
      declared language saved and its file loading, that language is current
      and nothing else is. */
  lemma NewRestoresSavedLanguage(defaultId: LanguageId, load: LanguageLoader, hasBus: bool, id: LanguageId)
    requires !id.UndeclaredLanguage? && load(ToIsoCode(id)).Some?
    ensures var r := New(defaultId, Some(ToIsoCode(id)), load, hasBus);
      && r.service.currentId == id
      && r.service.currentCode == Some(ToIsoCode(id))
      && r.prefs == Some(ToIsoCode(id))
  {
    IsoRoundTrip(id);
  }

  /** `SetLanguage(SystemLanguage)` lands on the language whose code is the
      system language's own two-letter code, and on "en" for any other. */
  lemma SystemLanguageCodes(sys: SystemLanguage)
    ensures sys == SystemEnglish ==> ToIsoCode(FromSystemLanguage(sys)) == "en"
    ensures sys == SystemSpanish ==> ToIsoCode(FromSystemLanguage(sys)) == "es"
    ensures sys == SystemItalian ==> ToIsoCode(FromSystemLanguage(sys)) == "it"
    ensures sys == SystemFrench ==> ToIsoCode(FromSystemLanguage(sys)) == "fr"
    ensures sys == SystemRussian ==> ToIsoCode(FromSystemLanguage(sys)) == "ru"
    ensures sys.OtherSystemLanguage? ==> ToIsoCode(FromSystemLanguage(sys)) == "en"
    ensures FromIsoCode(Some(ToIsoCode(FromSystemLanguage(sys)))) == Some(FromSystemLanguage(sys))
  {
    IsoRoundTrip(FromSystemLanguage(sys));
  }

  /** After any `SetLanguage` that did something, setting the same language
      again while its table is non-empty does nothing. */
  lemma SetLanguageSettles(s: Service, prefs: Option<string>, load: LanguageLoader, id: LanguageId)
    requires load(ToIsoCode(id)).Some? && |load(ToIsoCode(id)).value| > 0
    ensures var r := SetLanguage(s, prefs, load, id);
      SetLanguage(r.service, r.prefs, load, id) == Change(r.service, r.prefs, [])
  {
  }
}

=== FILE: localization_sync.dfy ===
/** The pure part of the editor's sheet import: splitting a CSV/TSV row into
    fields, mapping header cells to language codes, and building one
    key/value table per language from the header and the data rows. The
    download, the line splitting and the JSON files written are outside the
    model; the input is the list of lines. */
module LocalizationSync {
  import opened Wrappers
  import Text

  const Quote: char := '"'
  const Tab: char := '\t'

  /** The comma-mode scanner over the rest of a row, given the quote state
      and the field built so far. A quote toggles quoted mode and is not
      kept, except that two quotes in a row inside quotes keep one; a
      delimiter outside quotes ends the field; anything else is kept. */
  function Scan(rest: string, d: char, inQuotes: bool, field: string): (r: seq<string>)
    ensures |r| >= 1
    ensures |r| == DelimitersOutside(rest, d, inQuotes) + 1
    decreases |rest|
  {
    if |rest| == 0 then [field]
    else if rest[0] == Quote then
      if inQuotes && |rest| > 1 && rest[1] == Quote then Scan(rest[2..], d, inQuotes, field + [Quote])
      else Scan(rest[1..], d, !inQuotes, field)
    else if rest[0] == d && !inQuotes then [field] + Scan(rest[1..], d, inQuotes, "")
    else Scan(rest[1..], d, inQuotes, field + [rest[0]])
  }

  /** The number of delimiters the quote state leaves outside quotes. */
  function DelimitersOutside(rest: string, d: char, inQuotes: bool): nat
    decreases |rest|
  {
    if |rest| == 0 then 0
    else if rest[0] == Quote then
      if inQuotes && |rest| > 1 && rest[1] == Quote then DelimitersOutside(rest[2..], d, inQuotes)
      else DelimitersOutside(rest[1..], d, !inQuotes)
    else if rest[0] == d && !inQuotes then 1 + DelimitersOutside(rest[1..], d, inQuotes)
    else DelimitersOutside(rest[1..], d, inQuotes)
  }

  /** `SplitRow(row, delimiter)`: a plain split on tabs in tab mode (quotes
      are ordinary characters there); the quote-aware scanner otherwise. */
  function SplitRow(row: string, d: char): (r: seq<string>)
    ensures |r| >= 1
    ensures d == Tab ==> r == Text.SplitOn(row, Tab) && |r| == Text.Count(row, Tab) + 1
    ensures d != Tab ==> |r| == DelimitersOutside(row, d, false) + 1
  {
    if d == Tab then Text.SplitOn(row, Tab) else Scan(row, d, false, "")
  }

  /** The loop of `SplitRow` as written, index by index, with the skip over
      the second of two quotes. */
  method SplitRowLoop(row: string, d: char) returns (result: seq<string>)
    ensures result == SplitRow(row, d)
  {
    if d == Tab {
      return Text.SplitOn(row, Tab);
    }
    result := [];
    var sb: string := "";
    var inQuotes := false;
    var i := 0;
    while i < |row|
      invariant 0 <= i <= |row|
      invariant result + Scan(row[i..], d, inQuotes, sb) == Scan(row, d, false, "")
      decreases |row| - i
    {
      var ch := row[i];
      if ch == Quote {
        if inQuotes && i + 1 < |row| && row[i + 1] == Quote {
          assert row[i..][2..] == row[i + 2..];
          sb := sb + [Quote];
          i := i + 1;
        } else {
          assert row[i..][1..] == row[i + 1..];
          inQuotes := !inQuotes;
        }
      } else if ch == d && !inQuotes {
        assert row[i..][1..] == row[i + 1..];
        result := result + [sb];
        sb := "";
      } else {
        assert row[i..][1..] == row[i + 1..];
        sb := sb + [ch];
      }
      i := i + 1;
    }
    assert row[i..] == [];
    result := result + [sb];
  }

  /** Without quote characters the scanner splits exactly like a plain
      split, continuing the field it was given. */
  lemma {:induction false} ScanWithoutQuotes(rest: string, d: char, field: string)
    requires Quote !in rest
    ensures var parts := Text.SplitOn(rest, d);
      Scan(rest, d, false, field) == [field + parts[0]] + parts[1..]
    decreases |rest|
  {
    if |rest| == 0 {
      assert Text.SplitOn(rest, d) == [""];
      assert field + "" == field;
    } else {
      var parts := Text.SplitOn(rest, d);
      var tail := Text.SplitOn(rest[1..], d);
      assert rest[0] != Quote;
      assert Quote !in rest[1..];
      if rest[0] == d {
        ScanWithoutQuotes(rest[1..], d, "");
        assert parts == [""] + tail;
        assert parts[0] == "" && parts[1..] == tail;
        assert "" + tail[0] == tail[0];
        assert [tail[0]] + tail[1..] == tail;
        assert field + parts[0] == field;
      } else {
        ScanWithoutQuotes(rest[1..], d, field + [rest[0]]);
        assert parts == [[rest[0]] + tail[0]] + tail[1..];
        assert field + [rest[0]] + tail[0] == field + ([rest[0]] + tail[0]);
      }
    }
  }

  /** Round trip: a row with no quote characters splits into fields free of
      the delimiter, as many as its delimiters plus one, that join back to
      the row. */
  lemma PlainRowRoundTrip(row: string, d: char)
    requires Quote !in row && d != Quote
    ensures SplitRow(row, d) == Text.SplitOn(row, d)
    ensures Text.Join(SplitRow(row, d), d) == row
    ensures |SplitRow(row, d)| == Text.Count(row, d) + 1
  {
    if d != Tab {
      ScanWithoutQuotes(row, d, "");
      var parts := Text.SplitOn(row, d);
      assert "" + parts[0] == parts[0];
      assert [parts[0]] + parts[1..] == parts;
    }
  }

  /** No two adjacent quote characters. */
  predicate NoDoubledQuote(s: string) {
    forall i :: 0 <= i < |s| - 1 ==> !(s[i] == Quote && s[i + 1] == Quote)
  }

  /** Quotes are consumed: in comma mode a quote character only reaches a
      field through a doubled quote inside quotes. */
  lemma {:induction false} QuotesAreConsumed(rest: string, d: char, inQuotes: bool, field: string)
    requires NoDoubledQuote(rest) && Quote !in field
    ensures forall i :: 0 <= i < |Scan(rest, d, inQuotes, field)| ==> Quote !in Scan(rest, d, inQuotes, field)[i]
    decreases |rest|
  {
    if |rest| > 0 {
      assert NoDoubledQuote(rest[1..]);
      if rest[0] == Quote {
        QuotesAreConsumed(rest[1..], d, !inQuotes, field);
      } else if rest[0] == d && !inQuotes {
        QuotesAreConsumed(rest[1..], d, inQuotes, "");
      } else {
        QuotesAreConsumed(rest[1..], d, inQuotes, field + [rest[0]]);
      }
    }
  }

  /** A quoted field keeps its delimiter. */
  lemma QuotedDelimiterExample()
    ensures SplitRow("\"a,b\",c", ',') == ["a,b", "c"]
  {
    assert Scan("", ',', false, "c") == ["c"];
    assert "" + ['c'] == "c";
    assert Scan("c", ',', false, "") == ["c"];
    assert Scan(",c", ',', false, "a,b") == ["a,b", "c"];
    assert Scan("\",c", ',', true, "a,b") == ["a,b", "c"];
    assert "a," + ['b'] == "a,b";
    assert Scan("b\",c", ',', true, "a,") == ["a,b", "c"];
    assert "a" + [','] == "a,";
    assert Scan(",b\",c", ',', true, "a") == ["a,b", "c"];
    assert "" + ['a'] == "a";
    assert Scan("a,b\",c", ',', true, "") == ["a,b", "c"];
    assert Scan("\"a,b\",c", ',', false, "") == ["a,b", "c"];
  }

  /** A doubled quote inside quotes keeps one quote. */
  lemma DoubledQuoteExample()
    ensures SplitRow("\"x\"\"y\"", ',') == ["x\"y"]
  {
    assert Scan("", ',', false, "x\"y") == ["x\"y"];
    assert Scan("\"", ',', true, "x\"y") == ["x\"y"];
    assert "x\"" + ['y'] == "x\"y";
    assert Scan("y\"", ',', true, "x\"") == ["x\"y"];
    assert "x" + [Quote] == "x\"";
    assert Scan("\"\"y\"", ',', true, "x") == ["x\"y"];
    assert "" + ['x'] == "x";
    assert Scan("x\"\"y\"", ',', true, "") == ["x\"y"];
    assert Scan("\"x\"\"y\"", ',', false, "") == ["x\"y"];
  }

  /** A quote in mid-field toggles quoted mode all the same. */
  lemma MidFieldQuoteExample()
    ensures SplitRow("a\"b,c\"d", ',') == ["ab,cd"]
  {
    assert Scan("", ',', false, "ab,cd") == ["ab,cd"];
    assert "ab,c" + ['d'] == "ab,cd";
    assert Scan("d", ',', false, "ab,c") == ["ab,cd"];
    assert Scan("\"d", ',', true, "ab,c") == ["ab,cd"];
    assert "ab," + ['c'] == "ab,c";
    assert Scan("c\"d", ',', true, "ab,") == ["ab,cd"];
    assert "ab" + [','] == "ab,";
    assert Scan(",c\"d", ',', true, "ab") == ["ab,cd"];
    assert "a" + ['b'] == "ab";
    assert Scan("b,c\"d", ',', true, "a") == ["ab,cd"];
    assert Scan("\"b,c\"d", ',', false, "a") == ["ab,cd"];
    assert "" + ['a'] == "a";
    assert Scan("a\"b,c\"d", ',', false, "") == ["ab,cd"];
  }

  /** In tab mode quotes are ordinary characters. */
  lemma TabModeKeepsQuotes()
    ensures SplitRow("\"a\tb\"", Tab) == ["\"a", "b\""]
  {
    assert Text.SplitOn("", Tab) == [""];
    assert Text.SplitOn("\"", Tab) == ["\""];
    assert Text.SplitOn("b\"", Tab) == ["b\""];
    assert Text.SplitOn("\tb\"", Tab) == ["", "b\""];
    assert ['a'] + "" == "a";
    assert Text.SplitOn("a\tb\"", Tab) == ["a", "b\""];
    assert [Quote] + "a" == "\"a";
    assert Text.SplitOn("\"a\tb\"", Tab) == ["\"a", "b\""];
  }

  /** The header aliases, keyed by lower-case header text. */
  const HeaderAliases: map<string, string> := map[
    "en" := "en", "english" := "en",
    "es" := "es", "spanish" := "es", "espa\U{00F1}ol" := "es",
    "it" := "it", "italian" := "it", "italiano" := "it",
    "fr" := "fr", "french" := "fr", "fran\U{00E7}ais" := "fr",
    "ru" := "ru", "russian" := "ru", "\U{0440}\U{0443}\U{0441}\U{0441}\U{043A}\U{0438}\U{0439}" := "ru",
    "de" := "de", "german" := "de", "deutsch" := "de",
    "pt" := "pt", "portuguese" := "pt", "portugu\U{00EA}s" := "pt",
    "ja" := "ja", "japanese" := "ja", "\U{65E5}\U{672C}\U{8A9E}" := "ja",
    "ko" := "ko", "korean" := "ko", "\U{D55C}\U{AD6D}\U{C5B4}" := "ko",
    "zh-hans" := "zh-Hans", "zh_cn" := "zh-Hans", "chinese simplified" := "zh-Hans",
    "zh-hant" := "zh-Hant", "zh_tw" := "zh-Hant", "chinese traditional" := "zh-Hant",
    "ar" := "ar", "arabic" := "ar"
  ]

  /** The alias lookup in a table keyed by lower-case header text: the
      header is lower-cased before it is looked up. */
  function LookupAlias(aliases: map<string, string>, h: string): (r: Option<string>)
    ensures r.Some? <==> Text.Lower(h) in aliases
    ensures r.Some? ==> r.value == aliases[Text.Lower(h)]
  {
    var key := Text.Lower(h);
    if key in aliases then Some(aliases[key]) else None
  }

  /** The language code of a trimmed, non-empty header cell: its alias when it
      has one, the cell itself otherwise. */
  function IsoFor(aliases: map<string, string>, h: string): (r: string)
    ensures Text.Lower(h) !in aliases ==> r == h
    ensures Text.Lower(h) in aliases ==> r == aliases[Text.Lower(h)]
  {
    match LookupAlias(aliases, h)
    case Some(iso) => iso
    case None => h
  }

  /** A language column: its position in the header and its language code. */
  datatype Column = Column(index: nat, iso: string)

  /** The language columns from header position `c` on, over the trimmed
      header cells: every non-empty cell after the key column, in header
      order, under its language code. */
  function ColumnsFrom(aliases: map<string, string>, cells: seq<string>, c: nat): (r: seq<Column>)
    requires 1 <= c
    ensures forall i :: 0 <= i < |r| ==> c <= r[i].index < |cells|
    ensures forall i :: 0 <= i < |r| ==>
      cells[r[i].index] != "" && r[i].iso == IsoFor(aliases, cells[r[i].index])
    decreases |cells| - c
  {
    if c >= |cells| then []
    else if cells[c] == "" then ColumnsFrom(aliases, cells, c + 1)
    else [Column(c, IsoFor(aliases, cells[c]))] + ColumnsFrom(aliases, cells, c + 1)
  }

  /** The columns come in header order. */
  lemma {:induction false} ColumnsFromOrdered(aliases: map<string, string>, cells: seq<string>, c: nat)
    requires 1 <= c
    ensures forall i, j :: 0 <= i < j < |ColumnsFrom(aliases, cells, c)| ==>
      ColumnsFrom(aliases, cells, c)[i].index < ColumnsFrom(aliases, cells, c)[j].index
    decreases |cells| - c
  {
    if c < |cells| {
      ColumnsFromOrdered(aliases, cells, c + 1);
      var rest := ColumnsFrom(aliases, cells, c + 1);
      var r := ColumnsFrom(aliases, cells, c);
      if cells[c] != "" {
        assert r[0].index == c;
        assert forall i :: 1 <= i < |r| ==> r[i] == rest[i - 1];
      }
    }
  }

  /** Every non-empty cell after the key column has its column. */
  lemma {:induction false} ColumnsFromComplete(aliases: map<string, string>, cells: seq<string>, c: nat, k: nat)
    requires 1 <= c <= k < |cells| && cells[k] != ""
    ensures exists i :: 0 <= i < |ColumnsFrom(aliases, cells, c)| && ColumnsFrom(aliases, cells, c)[i].index == k
    decreases |cells| - c
  {
    var r := ColumnsFrom(aliases, cells, c);
    if k == c {
      assert r[0].index == k;
    } else {
      ColumnsFromComplete(aliases, cells, c + 1, k);
      var rest := ColumnsFrom(aliases, cells, c + 1);
      var i :| 0 <= i < |rest| && rest[i].index == k;
      if cells[c] != "" {
        assert r[i + 1] == rest[i];
      }
    }
  }

  /** Each cell, trimmed. */
  function TrimAll(cells: seq<string>): (r: seq<string>)
    ensures |r| == |cells|
    decreases |cells|
  {
    if |cells| == 0 then [] else [Text.Trim(cells[0])] + TrimAll(cells[1..])
  }

  /** The cells `TrimAll` gives are the trimmed cells, position by position. */
  lemma {:induction false} TrimAllAt(cells: seq<string>, i: nat)
    requires i < |cells|
    ensures TrimAll(cells)[i] == Text.Trim(cells[i])
    decreases i
  {
    if i > 0 {
      TrimAllAt(cells[1..], i - 1);
    }
  }

  /** The language columns of a header row. */
  function LanguageColumns(aliases: map<string, string>, header: seq<string>): (r: seq<Column>)
    ensures forall i :: 0 <= i < |r| ==> 1 <= r[i].index < |header|
    ensures forall i :: 0 <= i < |r| ==>
      !Text.Blank(header[r[i].index]) && r[i].iso == IsoFor(aliases, Text.Trim(header[r[i].index]))
  {
    var r := ColumnsFrom(aliases, TrimAll(header), 1);
    forall i | 0 <= i < |r|
      ensures !Text.Blank(header[r[i].index]) && r[i].iso == IsoFor(aliases, Text.Trim(header[r[i].index]))
    {
      TrimAllAt(header, r[i].index);
      Text.TrimIsEmptyIffBlank(header[r[i].index]);
    }
    r
  }

  /** A header cell after the key column has a language column exactly when
      it is not blank, and the columns keep header order. */
  lemma LanguageColumnsExact(aliases: map<string, string>, header: seq<string>)
    ensures forall k :: 1 <= k < |header| ==>
      (!Text.Blank(header[k]) <==> exists i :: 0 <= i < |LanguageColumns(aliases, header)| && LanguageColumns(aliases, header)[i].index == k)
    ensures forall i, j :: 0 <= i < j < |LanguageColumns(aliases, header)| ==>
      LanguageColumns(aliases, header)[i].index < LanguageColumns(aliases, header)[j].index
  {
    var cells := TrimAll(header);
    assert LanguageColumns(aliases, header) == ColumnsFrom(aliases, cells, 1);
    ColumnsFromOrdered(aliases, cells, 1);
    forall k | 1 <= k < |header| && !Text.Blank(header[k])
      ensures exists i :: 0 <= i < |LanguageColumns(aliases, header)| && LanguageColumns(aliases, header)[i].index == k
    {
      Text.TrimIsEmptyIffBlank(header[k]);
      TrimAllAt(header, k);
      ColumnsFromComplete(aliases, cells, 1, k);
    }
  }

  /** One language's table: the spelling of its code the file is named after,
      and its key/value entries. */
  datatype LangTable = LangTable(name: string, entries: map<string, string>)

  /** The per-language tables, looked up without regard to ASCII case: the
      map key is the lower-cased code. */
  type Tables = map<string, LangTable>

  /** The table keys the columns give. */
  function CodeKeys(cols: seq<Column>): set<string> {
    set i | 0 <= i < |cols| :: Text.Lower(cols[i].iso)
  }

  /** The first spelling among the columns of the code with key `k`. */
  function FirstSpelling(cols: seq<Column>, k: string): (r: string)
    requires k in CodeKeys(cols)
    ensures exists i :: 0 <= i < |cols| && cols[i].iso == r && Text.Lower(r) == k
    decreases |cols|
  {
    if Text.Lower(cols[0].iso) == k then cols[0].iso
    else
      assert k in CodeKeys(cols[1..]) by {
        var i :| 0 <= i < |cols| && Text.Lower(cols[i].iso) == k;
        assert cols[1..][i - 1] == cols[i];
      }
      var r := FirstSpelling(cols[1..], k);
      ghost var i :| 0 <= i < |cols[1..]| && cols[1..][i].iso == r && Text.Lower(r) == k;
      assert cols[i + 1].iso == r;
      r
  }

  /** One empty table per language column, column by column; a later column
      whose code matches an earlier one ignoring case resets the existing
      table and keeps its first spelling. */
  function InitTables(cols: seq<Column>): (r: Tables)
    decreases |cols|
  {
    if |cols| == 0 then map[]
    else
      var t := InitTables(cols[..|cols| - 1]);
      var c := cols[|cols| - 1];
      var k := Text.Lower(c.iso);
      if k in t then t[k := LangTable(t[k].name, map[])]
      else t[k := LangTable(c.iso, map[])]
  }

  /** The tables start out one per distinct code, empty, named after the
      code's first spelling. */
  lemma {:induction false} InitTablesShape(cols: seq<Column>)
    ensures InitTables(cols).Keys == CodeKeys(cols)
    ensures forall k :: k in InitTables(cols) ==>
      InitTables(cols)[k].entries == map[] && InitTables(cols)[k].name == FirstSpelling(cols, k)
    decreases |cols|
  {
    if |cols| > 0 {
      var front := cols[..|cols| - 1];
      var last := Text.Lower(cols[|cols| - 1].iso);
      var t := InitTables(front);
      InitTablesShape(front);
      CodeKeysSnoc(cols);
      assert InitTables(cols).Keys == t.Keys + {last};
      forall k | k in InitTables(cols)
        ensures InitTables(cols)[k].entries == map[] && InitTables(cols)[k].name == FirstSpelling(cols, k)
      {
        FirstSpellingOfPrefix(cols, k);
        if k != last {
          assert InitTables(cols)[k] == t[k];
        }
      }
    }
  }

  /** The codes of a column list are those of its front plus the last one. */
  lemma CodeKeysSnoc(cols: seq<Column>)
    requires |cols| > 0
    ensures CodeKeys(cols) == CodeKeys(cols[..|cols| - 1]) + {Text.Lower(cols[|cols| - 1].iso)}
  {
    var front := cols[..|cols| - 1];
    forall k | k in CodeKeys(cols) ensures k in CodeKeys(front) + {Text.Lower(cols[|cols| - 1].iso)} {
      var i :| 0 <= i < |cols| && Text.Lower(cols[i].iso) == k;
      if i < |cols| - 1 { assert front[i] == cols[i]; }
    }
    forall k | k in CodeKeys(front) ensures k in CodeKeys(cols) {
      var i :| 0 <= i < |front| && Text.Lower(front[i].iso) == k;
      assert cols[i] == front[i];
    }
  }

  /** Appending a column does not change the first spelling of a code the
      earlier columns already have, and a new code is spelled as the new
      column spells it. */
  lemma {:induction false} FirstSpellingOfPrefix(cols: seq<Column>, k: string)
    requires |cols| > 0 && k in CodeKeys(cols)
    ensures k in CodeKeys(cols[..|cols| - 1]) ==> FirstSpelling(cols, k) == FirstSpelling(cols[..|cols| - 1], k)
    ensures k !in CodeKeys(cols[..|cols| - 1]) ==> FirstSpelling(cols, k) == cols[|cols| - 1].iso
    decreases |cols|
  {
    var front := cols[..|cols| - 1];
    if Text.Lower(cols[0].iso) == k {
      if |cols| > 1 {
        assert front[0] == cols[0];
      }
    } else {
      var i :| 0 <= i < |cols| && Text.Lower(cols[i].iso) == k;
      assert cols[1..][i - 1] == cols[i];
      assert k in CodeKeys(cols[1..]);
      if |cols| == 1 {
      } else {
        assert cols[1..][..|cols[1..]| - 1] == front[1..];
        FirstSpellingOfPrefix(cols[1..], k);
        assert front[0] == cols[0];
        if k in CodeKeys(front) {
          var j :| 0 <= j < |front| && Text.Lower(front[j].iso) == k;
          assert front[1..][j - 1] == front[j];
          assert k in CodeKeys(front[1..]);
        }
      }
    }
  }

  /** One assignment of the row loop: the entry `key` of the table for
      `iso` gets `value`. */
  datatype Write = Write(iso: string, key: string, value: string)

  /** The assignments for one data row with key `key`, over its trimmed
      cells: one per language column the row reaches, in column order. */
  function CellWrites(cells: seq<string>, key: string, cols: seq<Column>): (r: seq<Write>)
    ensures |r| <= |cols|
    ensures forall i :: 0 <= i < |r| ==> r[i].key == key
    ensures r == [] <==> forall j :: 0 <= j < |cols| ==> cols[j].index >= |cells|
    ensures forall i :: 0 <= i < |r| ==> Text.Lower(r[i].iso) in CodeKeys(cols)
    ensures forall i :: 0 <= i < |r| ==>
      exists j :: 0 <= j < |cols| && cols[j].index < |cells| && r[i] == Write(cols[j].iso, key, cells[cols[j].index])
    decreases |cols|
  {
    if |cols| == 0 then []
    else
      var rest := CellWrites(cells, key, cols[1..]);
      assert forall j :: 1 <= j < |cols| ==> cols[j] == cols[1..][j - 1];
      assert CodeKeys(cols[1..]) <= CodeKeys(cols) by {
        forall k | k in CodeKeys(cols[1..]) ensures k in CodeKeys(cols) {
          var j :| 0 <= j < |cols[1..]| && Text.Lower(cols[1..][j].iso) == k;
          assert cols[j + 1] == cols[1..][j];
        }
      }
      assert Text.Lower(cols[0].iso) in CodeKeys(cols);
      if cols[0].index < |cells| then [Write(cols[0].iso, key, cells[cols[0].index])] + rest
      else rest
  }

  /** The assignments for one data row, over its trimmed cells: none when
      the key cell is empty. */
  function RowWrites(cells: seq<string>, cols: seq<Column>): (r: seq<Write>)
    requires |cells| >= 1
    ensures cells[0] == "" ==> r == []
    ensures forall i :: 0 <= i < |r| ==> r[i].key == cells[0] && r[i].key != ""
    ensures forall i :: 0 <= i < |r| ==> Text.Lower(r[i].iso) in CodeKeys(cols)
  {
    if cells[0] == "" then [] else CellWrites(cells, cells[0], cols)
  }

  /** The data lines split into fields, each field trimmed. */
  function ParseRows(lines: seq<string>, d: char): (r: seq<seq<string>>)
    ensures |r| == |lines|
    ensures forall i :: 0 <= i < |r| ==> |r[i]| >= 1
    decreases |lines|
  {
    if |lines| == 0 then []
    else [TrimAll(SplitRow(lines[0], d))] + ParseRows(lines[1..], d)
  }

  /** Row `i` is line `i` split at the delimiter, each field trimmed. */
  lemma {:induction false} ParseRowsAt(lines: seq<string>, d: char, i: nat)
    requires i < |lines|
    ensures ParseRows(lines, d)[i] == TrimAll(SplitRow(lines[i], d))
    decreases i
  {
    if i > 0 {
      ParseRowsAt(lines[1..], d, i - 1);
      assert lines[1..][i - 1] == lines[i];
    }
  }

  /** The assignments for the data rows, row after row. */
  function DataWrites(rows: seq<seq<string>>, cols: seq<Column>): (r: seq<Write>)
    requires forall i :: 0 <= i < |rows| ==> |rows[i]| >= 1
    ensures forall i :: 0 <= i < |r| ==> r[i].key != ""
    ensures forall i :: 0 <= i < |r| ==> Text.Lower(r[i].iso) in CodeKeys(cols)
    decreases |rows|
  {
    if |rows| == 0 then []
    else
      var head := RowWrites(rows[0], cols);
      var rest := DataWrites(rows[1..], cols);
      WritesConcat(head, rest, cols);
      head + rest
  }

  /** Writes with non-empty keys aimed at the columns' tables stay so when
      concatenated. */
  lemma WritesConcat(a: seq<Write>, b: seq<Write>, cols: seq<Column>)
    requires forall i :: 0 <= i < |a| ==> a[i].key != "" && Text.Lower(a[i].iso) in CodeKeys(cols)
    requires forall i :: 0 <= i < |b| ==> b[i].key != "" && Text.Lower(b[i].iso) in CodeKeys(cols)
    ensures forall i :: 0 <= i < |a + b| ==> (a + b)[i].key != "" && Text.Lower((a + b)[i].iso) in CodeKeys(cols)
  {
    forall i | 0 <= i < |a + b| ensures (a + b)[i].key != "" && Text.Lower((a + b)[i].iso) in CodeKeys(cols) {
      if i < |a| {
        assert (a + b)[i] == a[i];
      } else {
        assert (a + b)[i] == b[i - |a|];
      }
    }
  }

  /** One assignment: the table is found ignoring case; a code with no table
      yet gets a new one named after it. */
  function Put(t: Tables, w: Write): (r: Tables)
    ensures r.Keys == t.Keys + {Text.Lower(w.iso)}
    ensures w.key in r[Text.Lower(w.iso)].entries && r[Text.Lower(w.iso)].entries[w.key] == w.value
    ensures forall k :: k in t && k != Text.Lower(w.iso) ==> r[k] == t[k]
    ensures Text.Lower(w.iso) in t ==>
      (r[Text.Lower(w.iso)].name == t[Text.Lower(w.iso)].name
       && r[Text.Lower(w.iso)].entries == t[Text.Lower(w.iso)].entries[w.key := w.value])
    ensures Text.Lower(w.iso) !in t ==>
      r[Text.Lower(w.iso)] == LangTable(w.iso, map[w.key := w.value])
  {
    var k := Text.Lower(w.iso);
    if k in t then t[k := LangTable(t[k].name, t[k].entries[w.key := w.value])]
    else t[k := LangTable(w.iso, map[w.key := w.value])]
  }

  /** The assignments, in order. */
  function ApplyWrites(t: Tables, ws: seq<Write>): (r: Tables)
    ensures forall k :: k in t ==> k in r && r[k].name == t[k].name
    decreases |ws|
  {
    if |ws| == 0 then t
    else Put(ApplyWrites(t, ws[..|ws| - 1]), ws[|ws| - 1])
  }

  /** The table keys the assignments reach. */
  function WriteKeys(ws: seq<Write>): set<string> {
    set i | 0 <= i < |ws| :: Text.Lower(ws[i].iso)
  }

  /** The value of the last assignment to entry `key` of the table with key
      `k`, if any. */
  function LastWrite(ws: seq<Write>, k: string, key: string): (r: Option<string>)
    ensures r.Some? <==> exists i :: 0 <= i < |ws| && Text.Lower(ws[i].iso) == k && ws[i].key == key
    decreases |ws|
  {
    if |ws| == 0 then None
    else
      var w := ws[|ws| - 1];
      var front := ws[..|ws| - 1];
      assert forall i :: 0 <= i < |front| ==> front[i] == ws[i];
      if Text.Lower(w.iso) == k && w.key == key then Some(w.value)
      else LastWrite(front, k, key)
  }

  /** Applying the assignments adds exactly the tables they reach. */
  lemma {:induction false} ApplyWritesKeys(t: Tables, ws: seq<Write>)
    ensures ApplyWrites(t, ws).Keys == t.Keys + WriteKeys(ws)
    decreases |ws|
  {
    if |ws| > 0 {
      var front := ws[..|ws| - 1];
      ApplyWritesKeys(t, front);
      assert WriteKeys(ws) == WriteKeys(front) + {Text.Lower(ws[|ws| - 1].iso)} by {
        forall k | k in WriteKeys(ws) ensures k in WriteKeys(front) + {Text.Lower(ws[|ws| - 1].iso)} {
          var i :| 0 <= i < |ws| && Text.Lower(ws[i].iso) == k;
          if i < |ws| - 1 { assert front[i] == ws[i]; }
        }
        forall k | k in WriteKeys(front) ensures k in WriteKeys(ws) {
          var i :| 0 <= i < |front| && Text.Lower(front[i].iso) == k;
          assert ws[i] == front[i];
        }
      }
    }
  }

  /** Last write wins: after the assignments, an entry holds the value of
      the last assignment to it; an entry no assignment touches is as it
      was. */
  lemma {:induction false} ApplyWritesLastWriteWins(t: Tables, ws: seq<Write>, k: string, key: string)
    ensures LastWrite(ws, k, key).Some? ==>
      k in ApplyWrites(t, ws) && key in ApplyWrites(t, ws)[k].entries
      && ApplyWrites(t, ws)[k].entries[key] == LastWrite(ws, k, key).value
    ensures LastWrite(ws, k, key).None? && k in t ==>
      (key in ApplyWrites(t, ws)[k].entries <==> key in t[k].entries)
      && (key in t[k].entries ==> ApplyWrites(t, ws)[k].entries[key] == t[k].entries[key])
    ensures LastWrite(ws, k, key).None? && k !in t && k in ApplyWrites(t, ws) ==>
      key !in ApplyWrites(t, ws)[k].entries
    decreases |ws|
  {
    if |ws| > 0 {
      var front := ws[..|ws| - 1];
      var w := ws[|ws| - 1];
      var prev := ApplyWrites(t, front);
      assert ApplyWrites(t, ws) == Put(prev, w);
      if Text.Lower(w.iso) == k && w.key == key {
        assert LastWrite(ws, k, key) == Some(w.value);
      } else {
        assert LastWrite(ws, k, key) == LastWrite(front, k, key);
        ApplyWritesLastWriteWins(t, front, k, key);
        if Text.Lower(w.iso) == k {
          assert k in prev ==> ApplyWrites(t, ws)[k].entries == prev[k].entries[w.key := w.value];
        }
      }
    }
  }

  /** Assignments that only reach the columns' tables leave one table per
      column code. */
  lemma TablesPerColumnCode(cols: seq<Column>, ws: seq<Write>)
    requires forall i :: 0 <= i < |ws| ==> Text.Lower(ws[i].iso) in CodeKeys(cols)
    ensures ApplyWrites(InitTables(cols), ws).Keys == CodeKeys(cols)
  {
    InitTablesShape(cols);
    ApplyWritesKeys(InitTables(cols), ws);
  }

  /** Why an import stops before writing anything. */
  datatype SyncError = UrlEmpty | TooFewLines | KeyColumnMissing | NoLanguageColumns

  /** The field delimiter: tab in TSV mode, comma otherwise. */
  function Delimiter(useTsv: bool): char {
    if useTsv then Tab else ','
  }

  /** The tables `t` are those the columns `cols` and the assignments `ws`
      call for: one table per column code, named after its first spelling,
      holding exactly the entries assigned to it, each with its last value. */
  ghost predicate HoldsLastWrites(t: Tables, cols: seq<Column>, ws: seq<Write>) {
    && t.Keys == CodeKeys(cols)
    && (forall k :: k in t ==> t[k].name == FirstSpelling(cols, k))
    && (forall k, key :: k in t ==> (key in t[k].entries <==> LastWrite(ws, k, key).Some?))
    && (forall k, key :: k in t && LastWrite(ws, k, key).Some? ==>
          key in t[k].entries && t[k].entries[key] == LastWrite(ws, k, key).value)
  }

  /** A publish URL is set: not null and not blank. */
  predicate UrlSet(url: Option<string>) {
    url.Some? && !Text.Blank(url.value)
  }

  /** The header has a key column: at least two cells, the first "key" in
      any ASCII case. */
  predicate HasKeyColumn(header: seq<string>) {
    |header| >= 2 && Text.EqualsIgnoreCase(header[0], "key")
  }

  /** The tables one import writes, from the publish URL (null is `None`),
      the alias table, the downloaded lines and the TSV switch. */
  function BuildTables(url: Option<string>, aliases: map<string, string>, lines: seq<string>, useTsv: bool): (r: Result<Tables, SyncError>)
    ensures r == Err(UrlEmpty) <==> !UrlSet(url)
    ensures r == Err(TooFewLines) <==> UrlSet(url) && |lines| < 2
    ensures r == Err(KeyColumnMissing) <==>
      UrlSet(url) && |lines| >= 2 && !HasKeyColumn(SplitRow(lines[0], Delimiter(useTsv)))
    ensures r == Err(NoLanguageColumns) <==>
      UrlSet(url) && |lines| >= 2 && HasKeyColumn(SplitRow(lines[0], Delimiter(useTsv)))
      && |LanguageColumns(aliases, SplitRow(lines[0], Delimiter(useTsv)))| == 0
    ensures r.Ok? ==> |lines| >= 2 && |LanguageColumns(aliases, SplitRow(lines[0], Delimiter(useTsv)))| > 0
    ensures r.Ok? ==>
      Imported(r.value, LanguageColumns(aliases, SplitRow(lines[0], Delimiter(useTsv))), ParseRows(lines[1..], Delimiter(useTsv)))
  {
    if !UrlSet(url) then Err(UrlEmpty)
    else if |lines| < 2 then Err(TooFewLines)
    else
      var d := Delimiter(useTsv);
      var header := SplitRow(lines[0], d);
      if !HasKeyColumn(header) then Err(KeyColumnMissing)
      else
        var cols := LanguageColumns(aliases, header);
        if |cols| == 0 then Err(NoLanguageColumns)
        else
          Ok(ImportTables(cols, ParseRows(lines[1..], d)))
  }

  /** The row loop on fresh tables: one table per column code, holding the
      data rows' assignments, last value winning. */
  function ImportTables(cols: seq<Column>, rows: seq<seq<string>>): (t: Tables)
    requires forall i :: 0 <= i < |rows| ==> |rows[i]| >= 1
    ensures Imported(t, cols, rows)
  {
    var ws := DataWrites(rows, cols);
    FreshTablesLastWriteWins(cols, ws);
    var t := ApplyWrites(InitTables(cols), ws);
    forall k, key {
      LastWritesCells(t, cols, rows, k, key);
    }
    t
  }

  /** Entry `key` of each table is present exactly when a data row assigns
      it, and then holds the cell of the last row that does. */
  ghost predicate HoldsRowCells(t: Tables, cols: seq<Column>, rows: seq<seq<string>>) {
    && (forall k, key :: k in t ==> (key in t[k].entries <==> LastRowCell(rows, cols, k, key).Some?))
    && (forall k, key :: k in t && LastRowCell(rows, cols, k, key).Some? ==>
          key in t[k].entries && t[k].entries[key] == LastRowCell(rows, cols, k, key).value)
  }

  /** The tables `t` are what the row loop makes of the trimmed data rows
      `rows` under the language columns `cols`: described assignment by
      assignment, and cell by cell. */
  ghost predicate Imported(t: Tables, cols: seq<Column>, rows: seq<seq<string>>) {
    && (forall i :: 0 <= i < |rows| ==> |rows[i]| >= 1)
    && HoldsLastWrites(t, cols, DataWrites(rows, cols))
    && HoldsRowCells(t, cols, rows)
  }

  /** Assignments applied to fresh tables: a table holds exactly the
      entries assigned to it, each with its last value. */
  lemma FreshTablesLastWriteWins(cols: seq<Column>, ws: seq<Write>)
    requires forall i :: 0 <= i < |ws| ==> Text.Lower(ws[i].iso) in CodeKeys(cols)
    ensures HoldsLastWrites(ApplyWrites(InitTables(cols), ws), cols, ws)
  {
    InitTablesShape(cols);
    TablesPerColumnCode(cols, ws);
    forall k, key {
      FreshEntry(cols, ws, k, key);
    }
  }

  /** One entry of fresh tables after the assignments. */
  lemma FreshEntry(cols: seq<Column>, ws: seq<Write>, k: string, key: string)
    ensures k in ApplyWrites(InitTables(cols), ws) ==>
      (key in ApplyWrites(InitTables(cols), ws)[k].entries <==> LastWrite(ws, k, key).Some?)
    ensures k in ApplyWrites(InitTables(cols), ws) && LastWrite(ws, k, key).Some? ==>
      key in ApplyWrites(InitTables(cols), ws)[k].entries
      && ApplyWrites(InitTables(cols), ws)[k].entries[key] == LastWrite(ws, k, key).value
  {
    InitTablesShape(cols);
    ApplyWritesLastWriteWins(InitTables(cols), ws, k, key);
  }

  /** Column `c` is a column of the table with key `k` that the row `cells`
      reaches. */
  predicate Reaches(cells: seq<string>, c: Column, k: string) {
    c.index < |cells| && Text.Lower(c.iso) == k
  }

  /** The cell one row gives the table with key `k`: that of the last column
      of that code the row reaches, or none when it reaches none. */
  function RowCell(cells: seq<string>, cols: seq<Column>, k: string): (r: Option<string>)
    ensures r.Some? <==> exists j :: 0 <= j < |cols| && Reaches(cells, cols[j], k)
    ensures r.Some? ==> exists j :: 0 <= j < |cols| && Reaches(cells, cols[j], k) && r.value == cells[cols[j].index]
                                    && forall j' :: j < j' < |cols| ==> !Reaches(cells, cols[j'], k)
    decreases |cols|
  {
    if |cols| == 0 then None
    else
      var rest := RowCell(cells, cols[1..], k);
      assert forall j :: 1 <= j < |cols| ==> cols[j] == cols[1..][j - 1];
      if rest.Some? then
        ghost var j :| 0 <= j < |cols[1..]| && Reaches(cells, cols[1..][j], k) && rest.value == cells[cols[1..][j].index]
                       && forall j' :: j < j' < |cols[1..]| ==> !Reaches(cells, cols[1..][j'], k);
        assert Reaches(cells, cols[j + 1], k);
        rest
      else if Reaches(cells, cols[0], k) then Some(cells[cols[0].index])
      else None
  }

  /** Row `row` (trimmed cells) assigns entry `key` of the table with key
      `k`: its key cell is `key`, not empty, and it reaches a column of
      that code. */
  predicate RowHit(row: seq<string>, cols: seq<Column>, k: string, key: string) {
    |row| >= 1 && row[0] == key && key != "" && RowCell(row, cols, k).Some?
  }

  /** The value entry `key` of the table with key `k` ends up with: the
      cell of the last row that assigns it. */
  function LastRowCell(rows: seq<seq<string>>, cols: seq<Column>, k: string, key: string): (r: Option<string>)
    ensures r.Some? <==> exists i :: 0 <= i < |rows| && RowHit(rows[i], cols, k, key)
    ensures r.Some? ==> exists i :: 0 <= i < |rows| && RowHit(rows[i], cols, k, key) && r == RowCell(rows[i], cols, k)
                                    && forall i' :: i < i' < |rows| ==> !RowHit(rows[i'], cols, k, key)
    decreases |rows|
  {
    if |rows| == 0 then None
    else
      var rest := LastRowCell(rows[1..], cols, k, key);
      assert forall i :: 1 <= i < |rows| ==> rows[i] == rows[1..][i - 1];
      if rest.Some? then
        ghost var i :| 0 <= i < |rows[1..]| && RowHit(rows[1..][i], cols, k, key) && rest == RowCell(rows[1..][i], cols, k)
                       && forall i' :: i < i' < |rows[1..]| ==> !RowHit(rows[1..][i'], cols, k, key);
        assert RowHit(rows[i + 1], cols, k, key);
        rest
      else if RowHit(rows[0], cols, k, key) then RowCell(rows[0], cols, k)
      else None
  }

  /** The last assignment of a concatenation is the second part's, when it
      has one. */
  lemma {:induction false} LastWriteConcat(a: seq<Write>, b: seq<Write>, k: string, key: string)
    ensures LastWrite(a + b, k, key) == if LastWrite(b, k, key).Some? then LastWrite(b, k, key) else LastWrite(a, k, key)
    decreases |b|
  {
    if |b| == 0 {
      assert a + b == a;
    } else {
      assert (a + b)[..|a + b| - 1] == a + b[..|b| - 1];
      assert (a + b)[|a + b| - 1] == b[|b| - 1];
      LastWriteConcat(a, b[..|b| - 1], k, key);
    }
  }

  /** One row's assignments leave each entry with the row's cell for it. */
  lemma {:induction false} CellWritesLastColumn(cells: seq<string>, key: string, cols: seq<Column>, k: string, key': string)
    ensures LastWrite(CellWrites(cells, key, cols), k, key') == if key' == key then RowCell(cells, cols, k) else None
    decreases |cols|
  {
    if |cols| > 0 {
      var rest := CellWrites(cells, key, cols[1..]);
      CellWritesLastColumn(cells, key, cols[1..], k, key');
      if cols[0].index < |cells| {
        var w := Write(cols[0].iso, key, cells[cols[0].index]);
        assert CellWrites(cells, key, cols) == [w] + rest;
        LastWriteConcat([w], rest, k, key');
        assert [w][..0] == [];
      }
    }
  }

  lemma RowWritesLastCell(cells: seq<string>, cols: seq<Column>, k: string, key: string)
    requires |cells| >= 1
    ensures LastWrite(RowWrites(cells, cols), k, key) == if RowHit(cells, cols, k, key) then RowCell(cells, cols, k) else None
  {
    if cells[0] != "" {
      CellWritesLastColumn(cells, cells[0], cols, k, key);
    }
  }

  /** The data rows' assignments leave each entry with the cell of the last
      row that assigns it. */
  lemma {:induction false} DataWritesLastRow(rows: seq<seq<string>>, cols: seq<Column>, k: string, key: string)
    requires forall i :: 0 <= i < |rows| ==> |rows[i]| >= 1
    ensures LastWrite(DataWrites(rows, cols), k, key) == LastRowCell(rows, cols, k, key)
    decreases |rows|
  {
    if |rows| > 0 {
      var head := RowWrites(rows[0], cols);
      var rest := DataWrites(rows[1..], cols);
      assert DataWrites(rows, cols) == head + rest;
      DataWritesLastRow(rows[1..], cols, k, key);
      LastWriteConcat(head, rest, k, key);
      RowWritesLastCell(rows[0], cols, k, key);
    }
  }

  /** Tables holding the rows' last assignments hold, per entry, the cell
      of the last row that assigns it. */
  lemma LastWritesCells(t: Tables, cols: seq<Column>, rows: seq<seq<string>>, k: string, key: string)
    requires forall i :: 0 <= i < |rows| ==> |rows[i]| >= 1
    requires HoldsLastWrites(t, cols, DataWrites(rows, cols))
    ensures t.Keys == CodeKeys(cols)
    ensures k in t ==> (key in t[k].entries <==> LastRowCell(rows, cols, k, key).Some?)
    ensures k in t && LastRowCell(rows, cols, k, key).Some? ==> t[k].entries[key] == LastRowCell(rows, cols, k, key).value
  {
    DataWritesLastRow(rows, cols, k, key);
  }

  /** Header cells the alias table knows map to their code whatever their
      ASCII case; other cells are their own code. */
  lemma HeaderAliasExamples()
    ensures IsoFor(HeaderAliases, "English") == "en"
    ensures IsoFor(HeaderAliases, "ZH_CN") == "zh-Hans"
    ensures IsoFor(HeaderAliases, "Klingon") == "Klingon"
  {
    assert Text.Lower("English") == "english";
    assert Text.Lower("ZH_CN") == "zh_cn";
    assert Text.Lower("Klingon") == "klingon";
  }
}

=== FILE: presenter_factory.dfy ===
/** `PresenterFactory.Create`: one presenter class per screen. */
module PresenterFactory {
  import opened Wrappers
  import opened UiConstants

  datatype PresenterKind = MainMenuScreenPresenter | SettingsScreenPresenter

  /** A presenter object: its class and the view it was constructed with
      (the `view` field `BasePresenter` keeps). */
  datatype Presenter = Presenter(kind: PresenterKind, view: ViewId)

  /** The `NotImplementedException` thrown for a screen with no presenter. */
  datatype FactoryError = NotImplemented(id: ScreenId)

  /** The presenter class a declared screen is paired with. */
  function KindFor(id: ScreenId): PresenterKind
    requires id.Declared()
  {
    if id == MainMenu then MainMenuScreenPresenter else SettingsScreenPresenter
  }

  /** `Create(id, view)`: succeeds exactly on the declared screens, always
      with a presenter holding `view`; any other value throws. */
  function Create(id: ScreenId, view: ViewId): (r: Result<Presenter, FactoryError>)
    ensures r.Ok? <==> id.Declared()
    ensures r.Ok? ==> r.value.view == view
    ensures r.Err? ==> r.error == NotImplemented(id)
  {
    match id
    case MainMenu => Ok(Presenter(MainMenuScreenPresenter, view))
    case Settings => Ok(Presenter(SettingsScreenPresenter, view))
    case UndeclaredScreen(_) => Err(NotImplemented(id))
  }

  /** The mapping is total over the declared enum members and pairs
      different screens with different presenter classes. */
  lemma CreateIsTotalAndInjective(a: ScreenId, b: ScreenId, v: ViewId, w: ViewId)
    requires a.Declared() && b.Declared()
    ensures Create(a, v).Ok? && Create(a, v).value.kind == KindFor(a)
    ensures a != b ==> Create(a, v).value.kind != Create(b, w).value.kind
  {
  }
}

=== FILE: scene_loader.dfy ===
/** `SceneLoader` as an explicit step machine. The C# handlers are `async
    void` methods; each `await Task.Yield()` splits a load into a
    synchronous prefix (run by `Request`, `Unload`, `Reload`) and one
    resumption per later frame (`Tick`). What the scene host reports
    (whether it returned an operation, whether that operation is done, its
    progress) is a parameter of each step; cancellation sources are
    numbered, and the set of cancelled sources is part of the state. */
module SceneLoader {
  import opened Wrappers
  import Bus = EventBus
  import Collections

  type SceneName = string

  /** The host's `AsyncOperation.progress`, passed through unchanged. */
  type Progress = real

  /** The token a load checks: the default token (never cancelled) or the
      token of a numbered `CancellationTokenSource`. */
  datatype Token = NeverCancelled | FromSource(source: nat)

  /** A suspended continuation: a load waiting in its `while (!op.isDone)`
      loop, or an unload waiting in its own. */
  datatype Flight =
    | LoadFlight(scene: SceneName, additive: bool, activateOnLoad: bool, token: Token)
    | UnloadFlight(scene: SceneName)

  /** `cts` and `currentLoadingScene` are the two fields of the component;
      `cancelled`, `nextSource`, `flights` and `nextFlight` stand for the
      runtime's bookkeeping of sources and suspended tasks. */
  datatype Loader = Loader(
    cts: Option<nat>,
    currentLoadingScene: Option<SceneName>,
    cancelled: set<nat>,
    nextSource: nat,
    flights: map<nat, Flight>,
    nextFlight: nat)

  datatype SceneEvent =
    | Started(scene: SceneName, additive: bool)
    | ProgressReported(scene: SceneName, progress: Progress)
    | Completed(scene: SceneName, additive: bool)
    | UnloadCompleted(scene: SceneName)
    | Canceled(scene: SceneName)

  datatype LoadSceneRequest = LoadSceneRequest(scene: SceneName, additive: bool, activateOnLoad: bool, cancelPrevious: bool)

  /** What `LoadSceneAsync` / `UnloadSceneAsync` returned, seen at the first
      check of the loop: no operation (null), an operation already done, or
      one still running with the given progress. */
  datatype HostOp = NoOperation | AlreadyDone | Running(progress: Progress)

  /** What the operation reports when a suspended loop resumes. */
  datatype TickOutcome = Done | StillRunning(progress: Progress)

  /** A load started with `allowSceneActivation = false` never reaches
      `isDone` in Unity: once the scene has loaded, its progress stays at
      0.9 until activation is allowed, and nothing else can reach the
      operation to allow it. When the host reports such a load finished,
      the loop sees this progress instead. */
  const ActivationPending: Progress := 0.9

  /** A step's new state and the events it published, in order. */
  datatype Step = Step(loader: Loader, events: seq<SceneEvent>)

  const Initial: Loader := Loader(None, None, {}, 0, map[], 0)

  /** The state every reachable loader keeps: the source in `cts` is the
      newest one and comes with a current scene; every number in use was
      handed out by its counter. */
  ghost predicate Valid(s: Loader) {
    && (s.cts.Some? ==> s.currentLoadingScene.Some? && s.cts.value < s.nextSource)
    && (forall c :: c in s.cancelled ==> c < s.nextSource)
    && (forall f :: f in s.flights ==> f < s.nextFlight)
    && (forall f :: f in s.flights && s.flights[f].LoadFlight? && s.flights[f].token.FromSource? ==>
          s.flights[f].token.source < s.nextSource)
  }

  predicate IsCancelled(s: Loader, t: Token) {
    t.FromSource? && t.source in s.cancelled
  }

  lemma InitialIsValid()
    ensures Valid(Initial)
  {
  }

  /** The synchronous part of `Load(scene, additive, activateOnLoad, ct)`:
      publish Started, ask the host, and either finish at once or report
      progress and suspend. A load that may not activate never finishes
      here: a host operation that is already done is seen as still running
      at `ActivationPending`. Handlers of the scene events are not run, so
      no request can re-enter between Started and the first check; the
      token is therefore still uncancelled there (it is fresh, or never
      cancelled). */
  function BeginLoad(s: Loader, scene: SceneName, additive: bool, activateOnLoad: bool, token: Token, op: HostOp): (r: Step)
    requires !IsCancelled(s, token)
    ensures r.loader.cts == s.cts && r.loader.currentLoadingScene == s.currentLoadingScene
    ensures r.loader.cancelled == s.cancelled && r.loader.nextSource == s.nextSource
    ensures |r.events| >= 1 && r.events[0] == Started(scene, additive)
    ensures op.NoOperation? ==> r == Step(s, [Started(scene, additive)])
    ensures op.AlreadyDone? && activateOnLoad ==> r == Step(s, [Started(scene, additive), Completed(scene, additive)])
    ensures op.Running? ==>
              && r.events == [Started(scene, additive), ProgressReported(scene, op.progress)]
              && r.loader.flights == s.flights[s.nextFlight := LoadFlight(scene, additive, activateOnLoad, token)]
              && r.loader.nextFlight == s.nextFlight + 1
    // a finished load that may not activate reports the held progress and suspends
    ensures op.AlreadyDone? && !activateOnLoad ==>
              && r.events == [Started(scene, additive), ProgressReported(scene, ActivationPending)]
              && r.loader.flights == s.flights[s.nextFlight := LoadFlight(scene, additive, activateOnLoad, token)]
              && r.loader.nextFlight == s.nextFlight + 1
    ensures !activateOnLoad ==> forall i :: 0 <= i < |r.events| ==> !r.events[i].Completed?
    ensures op.NoOperation? || (op.AlreadyDone? && activateOnLoad) ==> r.loader == s
  {
    var started := [Started(scene, additive)];
    match op
    case NoOperation => Step(s, started)
    case _ =>
      if op.AlreadyDone? && activateOnLoad then Step(s, started + [Completed(scene, additive)])
      else
        var p := match op case Running(q) => q case _ => ActivationPending;
        Step(s.(flights := s.flights[s.nextFlight := LoadFlight(scene, additive, activateOnLoad, token)],
                nextFlight := s.nextFlight + 1),
             started + [ProgressReported(scene, p)])
  }

  /** `OnLoadRequested(req)` up to its first suspension: with
      `CancelPrevious` and a live source, cancel it and publish Canceled for
      the scene it was loading; then, cancelling or not, replace the source
      (the old one is disposed, not cancelled) and the current scene, and
      start the load. */
  function Request(s: Loader, req: LoadSceneRequest, op: HostOp): (r: Step)
    requires Valid(s)
    ensures Valid(r.loader)
    ensures r.loader.cts == Some(s.nextSource) && s.nextSource !in r.loader.cancelled
    ensures r.loader.currentLoadingScene == Some(req.scene)
    ensures r.loader.cancelled == if req.cancelPrevious && s.cts.Some? then s.cancelled + {s.cts.value} else s.cancelled
    ensures req.cancelPrevious && s.cts.Some? ==>
              |r.events| >= 2 && r.events[0] == Canceled(s.currentLoadingScene.value)
              && r.events[1] == Started(req.scene, req.additive)
    ensures !(req.cancelPrevious && s.cts.Some?) ==> |r.events| >= 1 && r.events[0] == Started(req.scene, req.additive)
    ensures forall i :: 0 <= i < |r.events| ==> r.events[i].Canceled? ==> i == 0 && r.events[i].scene == s.currentLoadingScene.value
    // the load it starts runs on the new source's token
    ensures op.Running? || (op.AlreadyDone? && !req.activateOnLoad) ==>
              r.loader.flights == s.flights[s.nextFlight := LoadFlight(req.scene, req.additive, req.activateOnLoad, FromSource(s.nextSource))]
              && r.loader.nextFlight == s.nextFlight + 1
    ensures op.NoOperation? || (op.AlreadyDone? && req.activateOnLoad) ==>
              r.loader.flights == s.flights && r.loader.nextFlight == s.nextFlight
    ensures r.events == (if req.cancelPrevious && s.cts.Some? then [Canceled(s.currentLoadingScene.value)] else [])
                        + [Started(req.scene, req.additive)]
                        + (match op
                           case NoOperation => []
                           case AlreadyDone =>
                             if req.activateOnLoad then [Completed(req.scene, req.additive)]
                             else [ProgressReported(req.scene, ActivationPending)]
                           case Running(p) => [ProgressReported(req.scene, p)])
  {
    var cancel := req.cancelPrevious && s.cts.Some?;
    var pre := if cancel then [Canceled(s.currentLoadingScene.value)] else [];
    var s1 := s.(cts := Some(s.nextSource),
                 currentLoadingScene := Some(req.scene),
                 cancelled := if cancel then s.cancelled + {s.cts.value} else s.cancelled,
                 nextSource := s.nextSource + 1);
    var b := BeginLoad(s1, req.scene, req.additive, req.activateOnLoad, FromSource(s.nextSource), op);
    Step(b.loader, pre + b.events)
  }

  /** One resumption of a suspended flight. A load checks `isDone` first:
      a finished operation completes even if its token was cancelled; a
      running one throws on a cancelled token (publishing Canceled for its
      own scene) or reports progress and suspends again. A load that may
      not activate is never done: a finished host operation is seen as
      running at `ActivationPending`. An unload only waits. A flight that
      is not suspended is left alone. */
  function Tick(s: Loader, id: nat, outcome: TickOutcome): (r: Step)
    ensures r.loader.cts == s.cts && r.loader.currentLoadingScene == s.currentLoadingScene
    ensures r.loader.cancelled == s.cancelled && r.loader.nextSource == s.nextSource
    ensures r.loader.nextFlight == s.nextFlight
    ensures r.loader.flights - {id} == s.flights - {id}
    ensures id !in s.flights ==> r == Step(s, [])
    ensures id in r.loader.flights ==>
              (id in s.flights && r.loader.flights[id] == s.flights[id]
               && (outcome.StillRunning? || (s.flights[id].LoadFlight? && !s.flights[id].activateOnLoad)))
    ensures |r.events| <= 1
    // a load that may activate: Done completes it, even on a cancelled token
    ensures id in s.flights && s.flights[id].LoadFlight? && s.flights[id].activateOnLoad && outcome.Done? ==>
              r.events == [Completed(s.flights[id].scene, s.flights[id].additive)] && id !in r.loader.flights
    // a load that may not activate never completes
    ensures id in s.flights && s.flights[id].LoadFlight? && !s.flights[id].activateOnLoad ==> r.events != [] && !r.events[0].Completed?
    // not done on a cancelled token: Canceled for its own scene, and the load ends
    ensures id in s.flights && s.flights[id].LoadFlight? && (outcome.StillRunning? || !s.flights[id].activateOnLoad)
            && IsCancelled(s, s.flights[id].token) ==>
              r.events == [Canceled(s.flights[id].scene)] && id !in r.loader.flights
    // not done otherwise: progress (held at ActivationPending when the host is done), and the load stays suspended as it was
    ensures id in s.flights && s.flights[id].LoadFlight? && outcome.StillRunning? && !IsCancelled(s, s.flights[id].token) ==>
              r == Step(s, [ProgressReported(s.flights[id].scene, outcome.progress)])
    ensures id in s.flights && s.flights[id].LoadFlight? && !s.flights[id].activateOnLoad && outcome.Done?
            && !IsCancelled(s, s.flights[id].token) ==>
              r == Step(s, [ProgressReported(s.flights[id].scene, ActivationPending)])
    // an unload: UnloadCompleted when done, nothing while it runs
    ensures id in s.flights && s.flights[id].UnloadFlight? && outcome.Done? ==>
              r.events == [UnloadCompleted(s.flights[id].scene)] && id !in r.loader.flights
    ensures id in s.flights && s.flights[id].UnloadFlight? && outcome.StillRunning? ==> r == Step(s, [])
    ensures Valid(s) ==> Valid(r.loader)
  {
    if id !in s.flights then Step(s, [])
    else
      var gone := s.(flights := s.flights - {id});
      match s.flights[id]
      case LoadFlight(scene, additive, activateOnLoad, token) =>
        if outcome.Done? && activateOnLoad then Step(gone, [Completed(scene, additive)])
        else
          var p := if outcome.StillRunning? then outcome.progress else ActivationPending;
          if IsCancelled(s, token) then Step(gone, [Canceled(scene)])
          else Step(s, [ProgressReported(scene, p)])
      case UnloadFlight(scene) =>
        (match outcome
         case Done => Step(gone, [UnloadCompleted(scene)])
         case StillRunning(_) => Step(s, []))
  }

  /** `OnUnloadRequested(req)`: the unload runs with the default token, so it
      is never cancelled; UnloadCompleted is published as soon as the loop
      ends, including when the host returned no operation. */
  function Unload(s: Loader, scene: SceneName, op: HostOp): (r: Step)
    ensures r.loader.cts == s.cts && r.loader.currentLoadingScene == s.currentLoadingScene
    ensures r.loader.cancelled == s.cancelled
    ensures !op.Running? ==> r == Step(s, [UnloadCompleted(scene)])
    ensures op.Running? ==> r.events == [] && r.loader.flights == s.flights[s.nextFlight := UnloadFlight(scene)]
    ensures Valid(s) ==> Valid(r.loader)
  {
    match op
    case Running(_) =>
      Step(s.(flights := s.flights[s.nextFlight := UnloadFlight(scene)], nextFlight := s.nextFlight + 1), [])
    case _ => Step(s, [UnloadCompleted(scene)])
  }

  /** `OnReloadRequested`: loads the host's active scene non-additively with
      the default token; the source and the current scene are untouched. */
  function Reload(s: Loader, activeScene: SceneName, op: HostOp): (r: Step)
    ensures r.loader.cts == s.cts && r.loader.currentLoadingScene == s.currentLoadingScene
    ensures r.loader.cancelled == s.cancelled
    ensures |r.events| >= 1 && r.events[0] == Started(activeScene, false)
    ensures op.Running? ==> s.nextFlight in r.loader.flights && r.loader.flights[s.nextFlight] == LoadFlight(activeScene, false, true, NeverCancelled)
    ensures Valid(s) ==> Valid(r.loader)
  {
    BeginLoad(s, activeScene, false, true, NeverCancelled, op)
  }

  /** The three request handlers `SubscribeEvents` put on the bus. */
  datatype LoaderHandlers = LoaderHandlers(onLoad: Bus.HandlerId, onUnload: Bus.HandlerId, onReload: Bus.HandlerId)

  /** `Dispose`: takes the three handlers off the bus, cancels the live
      source (if any) and forgets it; the current scene is kept. */
  function Dispose(s: Loader, bus: Bus.Table, hs: LoaderHandlers): (r: (Loader, Bus.Table))
    ensures r.0.cts == None && r.0.currentLoadingScene == s.currentLoadingScene
    ensures r.0.cancelled == if s.cts.Some? then s.cancelled + {s.cts.value} else s.cancelled
    ensures r.0.flights == s.flights
    ensures forall tag :: tag !in {"LoadSceneRequest", "UnloadSceneRequest", "ReloadActiveRequest"} ==>
              Bus.Handlers(r.1, tag) == Bus.Handlers(bus, tag)
    ensures Bus.Handlers(r.1, "LoadSceneRequest") == Collections.RemoveFirst(Bus.Handlers(bus, "LoadSceneRequest"), hs.onLoad)
    ensures Bus.Handlers(r.1, "UnloadSceneRequest") == Collections.RemoveFirst(Bus.Handlers(bus, "UnloadSceneRequest"), hs.onUnload)
    ensures Bus.Handlers(r.1, "ReloadActiveRequest") == Collections.RemoveFirst(Bus.Handlers(bus, "ReloadActiveRequest"), hs.onReload)
    ensures Valid(s) ==> Valid(r.0)
  {
    var b1 := Bus.Unsubscribe(bus, "LoadSceneRequest", hs.onLoad);
    var b2 := Bus.Unsubscribe(b1, "UnloadSceneRequest", hs.onUnload);
    var bus' := Bus.Unsubscribe(b2, "ReloadActiveRequest", hs.onReload);
    var cancelled := if s.cts.Some? then s.cancelled + {s.cts.value} else s.cancelled;
    (s.(cts := None, cancelled := cancelled), bus')
  }

  /** The resumptions of one flight, one per outcome, with the events they
      publish in order. */
  function RunFlight(s: Loader, id: nat, outcomes: seq<TickOutcome>): Step
    decreases |outcomes|
  {
    if |outcomes| == 0 then Step(s, [])
    else
      var t := Tick(s, id, outcomes[0]);
      var rest := RunFlight(t.loader, id, outcomes[1..]);
      Step(rest.loader, t.events + rest.events)
  }

  /** A flight that has ended publishes nothing more. */
  lemma {:induction false} RunEndedFlight(s: Loader, id: nat, outcomes: seq<TickOutcome>)
    requires id !in s.flights
    ensures RunFlight(s, id, outcomes) == Step(s, [])
    decreases |outcomes|
  {
    if |outcomes| > 0 {
      RunEndedFlight(s, id, outcomes[1..]);
    }
  }

  /** Terminal events of a load of `scene`. */
  predicate EndsLoad(e: SceneEvent, scene: SceneName, additive: bool) {
    e == Completed(scene, additive) || e == Canceled(scene)
  }

  /** The events of a suspended load, however its host outcomes go: Progress
      for its own scene while it stays suspended, then at most one terminal
      event (Completed with its additive flag, or Canceled for its own
      scene), after which nothing. Canceled needs a cancelled token. The
      source and current scene are not touched, so finishing a load leaves
      its token in place. */
  lemma {:induction false} LoadRunShape(s: Loader, id: nat, outcomes: seq<TickOutcome>)
    requires id in s.flights && s.flights[id].LoadFlight?
    ensures var f := s.flights[id];
      var r := RunFlight(s, id, outcomes);
      && r.loader.cts == s.cts && r.loader.currentLoadingScene == s.currentLoadingScene
      && (forall i :: 0 <= i < |r.events| - 1 ==> r.events[i].ProgressReported? && r.events[i].scene == f.scene)
      && (|r.events| > 0 ==> (r.events[|r.events| - 1].ProgressReported? && r.events[|r.events| - 1].scene == f.scene)
                             || EndsLoad(r.events[|r.events| - 1], f.scene, f.additive))
      && (id in r.loader.flights <==> forall i :: 0 <= i < |r.events| ==> r.events[i].ProgressReported?)
      && (id !in r.loader.flights ==> |r.events| > 0 && EndsLoad(r.events[|r.events| - 1], f.scene, f.additive))
      && (!IsCancelled(s, f.token) ==> forall i :: 0 <= i < |r.events| ==> !r.events[i].Canceled?)
    decreases |outcomes|
  {
    var f := s.flights[id];
    if |outcomes| > 0 {
      var t := Tick(s, id, outcomes[0]);
      if id in t.loader.flights {
        LoadRunShape(t.loader, id, outcomes[1..]);
      } else {
        RunEndedFlight(t.loader, id, outcomes[1..]);
      }
    }
  }

  /** A load whose host reports `Done` completes at that check even if its
      token was cancelled meanwhile: cancellation is only checked while the
      operation is still running. A load that may not activate is never
      done, so it is canceled instead. */
  lemma DoneBeatsCancellation(s: Loader, id: nat)
    requires id in s.flights && s.flights[id].LoadFlight? && IsCancelled(s, s.flights[id].token)
    ensures var f := s.flights[id];
      Tick(s, id, Done).events == if f.activateOnLoad then [Completed(f.scene, f.additive)] else [Canceled(f.scene)]
  {
  }

  /** A suspended load whose token was cancelled ends at its next check:
      one event, Canceled for its own scene (Completed if the host reports
      Done at that check and the load may activate), and nothing after it. */
  lemma CancelledLoadEndsAtNextCheck(s: Loader, id: nat, outcomes: seq<TickOutcome>)
    requires id in s.flights && s.flights[id].LoadFlight? && IsCancelled(s, s.flights[id].token)
    requires |outcomes| > 0
    ensures var f := s.flights[id];
      var r := RunFlight(s, id, outcomes);
      && id !in r.loader.flights
      && r.events == (if outcomes[0].Done? && f.activateOnLoad then [Completed(f.scene, f.additive)] else [Canceled(f.scene)])
  {
    var t := Tick(s, id, outcomes[0]);
    RunEndedFlight(t.loader, id, outcomes[1..]);
  }

  /** A reload, or any load on the default token, never ends in Canceled. */
  lemma ReloadIsNeverCanceled(s: Loader, activeScene: SceneName, p: Progress, outcomes: seq<TickOutcome>)
    ensures var b := Reload(s, activeScene, Running(p));
      var r := RunFlight(b.loader, s.nextFlight, outcomes);
      forall i :: 0 <= i < |r.events| ==> !r.events[i].Canceled?
  {
    var b := Reload(s, activeScene, Running(p));
    LoadRunShape(b.loader, s.nextFlight, outcomes);
  }

  /** With no operation from the host, a load publishes Started and nothing
      else: no Completed, no Canceled, and nothing left suspended. */
  lemma NoOperationOnlyStarts(s: Loader, req: LoadSceneRequest)
    requires Valid(s) && !(req.cancelPrevious && s.cts.Some?)
    ensures var r := Request(s, req, NoOperation);
      && r.events == [Started(req.scene, req.additive)]
      && r.loader.flights == s.flights
  {
  }

  /** The source is never cleared on completion: a load that already
      completed still gets a Canceled event from the next cancelling
      request. */
  lemma CompletedLoadIsCanceledLater(a: LoadSceneRequest, b: LoadSceneRequest, op: HostOp)
    requires b.cancelPrevious
    ensures var first := Request(Initial, a, AlreadyDone);
      && (a.activateOnLoad ==> first.events == [Started(a.scene, a.additive), Completed(a.scene, a.additive)])
      && Request(first.loader, b, op).events[0] == Canceled(a.scene)
  {
  }

  /** Cancellation ordering for two cancelling requests A then B, both left
      running: Started(A), Progress(A), Canceled(A), Started(B), Progress(B);
      when A's loop next resumes still running it publishes Canceled(A) a
      second time, and B completes when its operation is done. */
  lemma SupersededLoadIsCanceledTwice(a: SceneName, b: SceneName, pa: Progress, pb: Progress, pa2: Progress)
    ensures var reqA := LoadSceneRequest(a, false, true, true);
      var reqB := LoadSceneRequest(b, false, true, true);
      var s1 := Request(Initial, reqA, Running(pa));
      var s2 := Request(s1.loader, reqB, Running(pb));
      var s3 := Tick(s2.loader, 0, StillRunning(pa2));
      var s4 := Tick(s3.loader, 1, Done);
      && s1.events + s2.events + s3.events + s4.events
         == [Started(a, false), ProgressReported(a, pa), Canceled(a), Started(b, false), ProgressReported(b, pb),
             Canceled(a), Completed(b, false)]
  {
    var reqA := LoadSceneRequest(a, false, true, true);
    var reqB := LoadSceneRequest(b, false, true, true);
    var s1 := Request(Initial, reqA, Running(pa));
    assert s1.loader.flights == map[0 := LoadFlight(a, false, true, FromSource(0))];
    var s2 := Request(s1.loader, reqB, Running(pb));
    assert s2.loader.cancelled == {0};
    assert s2.loader.flights == map[0 := LoadFlight(a, false, true, FromSource(0)), 1 := LoadFlight(b, false, true, FromSource(1))];
    var s3 := Tick(s2.loader, 0, StillRunning(pa2));
    assert s3.events == [Canceled(a)];
    assert s3.loader.flights == map[1 := LoadFlight(b, false, true, FromSource(1))];
  }

  /** A first cancelling load of "Game" whose operation runs for a while
      and then finishes publishes Started, Progress reports only for
      "Game", and finally Completed("Game", false). */
  lemma FirstLoadScenario(p: Progress, outcomes: seq<TickOutcome>)
    requires |outcomes| > 0 && outcomes[|outcomes| - 1] == Done
    ensures var b := Request(Initial, LoadSceneRequest("Game", false, true, true), Running(p));
      var r := RunFlight(b.loader, 0, outcomes);
      var ev := b.events + r.events;
      && ev[0] == Started("Game", false)
      && (forall i :: 1 <= i < |ev| - 1 ==> ev[i].ProgressReported? && ev[i].scene == "Game")
      && |r.events| > 0 && ev[|ev| - 1] == Completed("Game", false)
  {
    var b := Request(Initial, LoadSceneRequest("Game", false, true, true), Running(p));
    LoadRunShape(b.loader, 0, outcomes);
    LoadRunEndsOnDone(b.loader, 0, outcomes);
  }

  /** A load that may activate, on a token that is never cancelled, resumed
      until its host reports `Done`, has left the flights and ended in
      Completed. (One that may not activate never ends that way; see
      `NonActivatingLoadNeverCompletes`.) */
  lemma {:induction false} LoadRunEndsOnDone(s: Loader, id: nat, outcomes: seq<TickOutcome>)
    requires id in s.flights && s.flights[id].LoadFlight? && !IsCancelled(s, s.flights[id].token)
    requires |outcomes| > 0 && outcomes[|outcomes| - 1] == Done
    ensures var r := RunFlight(s, id, outcomes);
      s.flights[id].activateOnLoad ==>
        id !in r.loader.flights && |r.events| > 0 && r.events[|r.events| - 1] == Completed(s.flights[id].scene, s.flights[id].additive)
    decreases |outcomes|
  {
    if s.flights[id].activateOnLoad {
      var t := Tick(s, id, outcomes[0]);
      LoadRunShape(s, id, outcomes);
      if id in t.loader.flights {
        assert |outcomes| > 1;
        LoadRunEndsOnDone(t.loader, id, outcomes[1..]);
      } else {
        RunEndedFlight(t.loader, id, outcomes[1..]);
      }
    }
  }

  /** A suspended load that may not activate never publishes Completed,
      whatever the host reports. On a token that is not cancelled it stays
      suspended and publishes one Progress for its own scene per
      resumption, forever; only a cancellation ends it, with Canceled. */
  lemma {:induction false} NonActivatingLoadNeverCompletes(s: Loader, id: nat, outcomes: seq<TickOutcome>)
    requires id in s.flights && s.flights[id].LoadFlight? && !s.flights[id].activateOnLoad
    ensures var f := s.flights[id];
      var r := RunFlight(s, id, outcomes);
      && (forall i :: 0 <= i < |r.events| ==> !r.events[i].Completed?)
      && (!IsCancelled(s, f.token) ==>
            && id in r.loader.flights && r.loader.flights[id] == f
            && |r.events| == |outcomes|
            && forall i :: 0 <= i < |r.events| ==> r.events[i].ProgressReported? && r.events[i].scene == f.scene)
    decreases |outcomes|
  {
    if |outcomes| > 0 {
      var t := Tick(s, id, outcomes[0]);
      if id in t.loader.flights {
        NonActivatingLoadNeverCompletes(t.loader, id, outcomes[1..]);
      } else {
        RunEndedFlight(t.loader, id, outcomes[1..]);
      }
    }
  }

  /** A request to load without activation publishes no Completed, neither
      when it starts nor at any later resumption of its load. */
  lemma NonActivatingRequestNeverCompletes(s: Loader, req: LoadSceneRequest, op: HostOp, outcomes: seq<TickOutcome>)
    requires Valid(s) && !req.activateOnLoad
    ensures var b := Request(s, req, op);
      var r := RunFlight(b.loader, s.nextFlight, outcomes);
      forall i :: 0 <= i < |b.events + r.events| ==> !(b.events + r.events)[i].Completed?
  {
    var b := Request(s, req, op);
    if s.nextFlight in b.loader.flights {
      NonActivatingLoadNeverCompletes(b.loader, s.nextFlight, outcomes);
    } else {
      RunEndedFlight(b.loader, s.nextFlight, outcomes);
    }
    var r := RunFlight(b.loader, s.nextFlight, outcomes);
    assert forall i :: 0 <= i < |b.events| ==> !b.events[i].Completed?;
    assert forall i :: 0 <= i < |r.events| ==> !r.events[i].Completed?;
  }
}

=== FILE: service_locator.dfy ===
/** The process-wide service registry: a map from service type to instance,
    kept (like the event table) in a static field, and reached through a
    lazily created `Instance` singleton. */
module ServiceLocator {
  import opened Wrappers

  /** The generic type argument `T` of `Register<T>`, `Get<T>`, ... */
  type ServiceType = string

  /** A registered value: a null reference or an object with an identity. */
  datatype Instance = Null | Object(id: nat)

  /** `services` is the static table; `singleton` is the static `_instance`
      field, absent until `Instance` is first read. */
  datatype Locator = Locator(singleton: Option<nat>, services: map<ServiceType, Instance>)

  /** The result of `Get<T>`: the value returned and whether the
      "Service not found" error was logged. */
  datatype Lookup = Lookup(value: Instance, notFoundLogged: bool)

  const Empty: Locator := Locator(None, map[])

  /** `Get<T>()`: the stored value when the type has an entry (even a null
      one, which is returned without logging); otherwise logs and returns
      null. */
  function Get(l: Locator, t: ServiceType): (r: Lookup)
    ensures r.notFoundLogged <==> t !in l.services
    ensures r.notFoundLogged ==> r.value == Null
    ensures t in l.services ==> r.value == l.services[t]
  {
    if t in l.services then Lookup(l.services[t], false) else Lookup(Null, true)
  }

  /** `Register<T>(service)`: adds or overwrites the entry for `t`. */
  function Register(l: Locator, t: ServiceType, x: Instance): (r: Locator)
    ensures Get(r, t) == Lookup(x, false)
    ensures forall u :: u != t ==> Get(r, u) == Get(l, u)
    ensures r.singleton == l.singleton
  {
    l.(services := l.services[t := x])
  }

  /** `Unregister<T>()`: drops the entry for `t`, if any. */
  function Unregister(l: Locator, t: ServiceType): (r: Locator)
    ensures Get(r, t) == Lookup(Null, true)
    ensures forall u :: u != t ==> Get(r, u) == Get(l, u)
    ensures t !in l.services ==> r == l
    ensures r.singleton == l.singleton
  {
    if t in l.services then l.(services := l.services - {t}) else l
  }

  /** `Clear()`: drops every entry. */
  function Clear(l: Locator): (r: Locator)
    ensures forall u :: Get(r, u) == Lookup(Null, true)
    ensures r.singleton == l.singleton
  {
    l.(services := map[])
  }

  /** The `Instance` property: creates the singleton (with identity `newId`)
      on first use, and returns the same one ever after. */
  function GetInstance(l: Locator, newId: nat): (r: (Locator, nat))
    ensures r.0.singleton == Some(r.1)
    ensures l.singleton.Some? ==> r == (l, l.singleton.value)
    ensures r.0.services == l.services
  {
    match l.singleton
    case Some(i) => (l, i)
    case None => (l.(singleton := Some(newId)), newId)
  }

  /** Reading `Instance` twice yields the same object, whatever identity the
      second read would have chosen. */
  lemma InstanceIsStable(l: Locator, newId1: nat, newId2: nat)
    ensures var (l1, a) := GetInstance(l, newId1);
      var (l2, b) := GetInstance(l1, newId2);
      a == b && l2 == l1
  {
  }

  /** Re-registering a type: the last write wins. */
  lemma LastWriteWins(l: Locator, t: ServiceType, x: Instance, y: Instance)
    ensures Get(Register(Register(l, t, x), t, y), t) == Lookup(y, false)
    ensures Register(Register(l, t, x), t, y) == Register(l, t, y)
  {
  }

  /** After `Unregister`, `Get` is not-found again, and `Unregister` of a
      missing type is a no-op. */
  lemma RegisterUnregister(l: Locator, t: ServiceType, x: Instance)
    ensures Get(Unregister(Register(l, t, x), t), t).notFoundLogged
    ensures t !in l.services ==> Unregister(Register(l, t, x), t) == l
  {
  }
}

=== FILE: text.dfy ===
/** ASCII models of the .NET string primitives the localization code relies
    on: `ToLowerInvariant`, `OrdinalIgnoreCase` comparison, `Trim`, and
    `Split` on one character. Characters outside ASCII are left as they are. */
module Text {

  predicate IsUpper(c: char) {
    'A' <= c <= 'Z'
  }

  /** A capital letter moves to its small letter, 32 code points higher;
      every other character stays. */
  function LowerChar(c: char): (r: char)
    ensures IsUpper(c) ==> 'a' <= r <= 'z' && r as int == c as int + 32
    ensures !IsUpper(c) ==> r == c
    ensures !IsUpper(r)
  {
    if IsUpper(c) then (c as int + 32) as char else c
  }

  /** No character of `s` is a capital letter. */
  predicate NoUpper(s: string) {
    forall i :: 0 <= i < |s| ==> !IsUpper(s[i])
  }

  /** `ToLowerInvariant` restricted to ASCII letters: same length, every
      capital replaced by its small letter, everything else kept. */
  function Lower(s: string): (r: string)
    ensures |r| == |s|
    ensures NoUpper(r)
    ensures forall i :: 0 <= i < |s| && IsUpper(s[i]) ==> r[i] as int == s[i] as int + 32
    ensures forall i :: 0 <= i < |s| && !IsUpper(s[i]) ==> r[i] == s[i]
    ensures forall i :: 0 <= i < |s| ==> r[i] == LowerChar(s[i])
  {
    seq(|s|, i requires 0 <= i < |s| => LowerChar(s[i]))
  }

  /** `Lower` leaves a string unchanged exactly when it holds no capital. */
  lemma LowerFixesExactlyNoUpper(s: string)
    ensures Lower(s) == s <==> NoUpper(s)
  {
    if Lower(s) == s {
      forall i | 0 <= i < |s| ensures !IsUpper(s[i]) {
        assert Lower(s)[i] == s[i];
      }
    }
  }

  lemma LowerIsIdempotent(s: string)
    ensures Lower(Lower(s)) == Lower(s)
  {
    LowerFixesExactlyNoUpper(Lower(s));
  }

  /** `string.Equals(a, b, StringComparison.OrdinalIgnoreCase)` over ASCII. */
  predicate EqualsIgnoreCase(a: string, b: string) {
    Lower(a) == Lower(b)
  }

  /** `char.IsWhiteSpace` over ASCII: tab, line feed, vertical tab, form
      feed, carriage return and space. */
  predicate IsWhite(c: char) {
    '\t' <= c <= '\r' || c == ' '
  }

  function TrimStart(s: string): (r: string)
    ensures |r| <= |s| && r == s[|s| - |r|..]
    ensures |r| > 0 ==> !IsWhite(r[0])
    ensures forall i :: 0 <= i < |s| - |r| ==> IsWhite(s[i])
    decreases |s|
  {
    if |s| > 0 && IsWhite(s[0]) then TrimStart(s[1..]) else s
  }

  function TrimEnd(s: string): (r: string)
    ensures |r| <= |s| && r == s[..|r|]
    ensures |r| > 0 ==> !IsWhite(r[|r| - 1])
    ensures forall i :: |r| <= i < |s| ==> IsWhite(s[i])
    decreases |s|
  {
    if |s| > 0 && IsWhite(s[|s| - 1]) then TrimEnd(s[..|s| - 1]) else s
  }

  /** Number of white-space characters at the start of `s`. */
  function LeadingWhite(s: string): (n: nat)
    ensures n <= |s|
    ensures forall i :: 0 <= i < n ==> IsWhite(s[i])
    ensures n < |s| ==> !IsWhite(s[n])
  {
    |s| - |TrimStart(s)|
  }

  /** Number of white-space characters at the end of `s`. */
  function TrailingWhite(s: string): (n: nat)
    ensures n <= |s|
    ensures forall i :: |s| - n <= i < |s| ==> IsWhite(s[i])
    ensures n < |s| ==> !IsWhite(s[|s| - 1 - n])
  {
    |s| - |TrimEnd(s)|
  }

  /** `string.Trim()`: the slice of `s` after its leading white space that
      stops before its trailing white space. */
  function Trim(s: string): (r: string)
    ensures |r| > 0 ==> !IsWhite(r[0]) && !IsWhite(r[|r| - 1])
    ensures LeadingWhite(s) + |r| <= |s|
    ensures r == s[LeadingWhite(s)..LeadingWhite(s) + |r|]
    ensures forall i :: LeadingWhite(s) + |r| <= i < |s| ==> IsWhite(s[i])
  {
    var a := LeadingWhite(s);
    if a == |s| then ""
    else
      var b := |s| - TrailingWhite(s);
      assert a < b;
      s[a..b]
  }

  /** Every character of `s` is white space. */
  predicate Blank(s: string) {
    forall i :: 0 <= i < |s| ==> IsWhite(s[i])
  }

  /** `string.IsNullOrEmpty(s.Trim())` holds exactly for blank strings. */
  lemma TrimIsEmptyIffBlank(s: string)
    ensures Trim(s) == "" <==> Blank(s)
  {
    if Trim(s) == "" {
      forall i | 0 <= i < |s| ensures IsWhite(s[i]) {
        if i < LeadingWhite(s) { } else { }
      }
    } else {
      assert !IsWhite(s[LeadingWhite(s)]);
    }
  }

  /** Number of occurrences of `c` in `s`. */
  function Count(s: string, c: char): nat
    decreases |s|
  {
    if |s| == 0 then 0 else (if s[0] == c then 1 else 0) + Count(s[1..], c)
  }

  /** `string.Join(d, fields)`. */
  function Join(fields: seq<string>, d: char): string
    decreases |fields|
  {
    if |fields| == 0 then ""
    else if |fields| == 1 then fields[0]
    else fields[0] + [d] + Join(fields[1..], d)
  }

  /** `s.Split(d)`: the pieces of `s` between occurrences of `d`, keeping
      empty pieces. */
  function SplitOn(s: string, d: char): (r: seq<string>)
    ensures |r| == Count(s, d) + 1
    ensures forall i :: 0 <= i < |r| ==> d !in r[i]
    ensures Join(r, d) == s
    decreases |s|
  {
    if |s| == 0 then [""]
    else
      var rest := SplitOn(s[1..], d);
      assert s == [s[0]] + s[1..];
      if s[0] == d then [""] + rest
      else
        var r := [[s[0]] + rest[0]] + rest[1..];
        assert r[1..] == rest[1..];
        r
  }
}

=== FILE: ui_constants.dfy ===
/** The UI enumerations and the opaque Unity handles the UI layer passes
    around. A C# enum variable can hold any integer, so each enumeration has
    one extra constructor for a value outside its declared members; the
    `default:` arms of the source are written for those. */
module UiConstants {

  /** The integers no `ScreenId` member has: MainMenu is 0, Settings 1. */
  type UndeclaredScreenValue = x: int | x < 0 || x > 1 witness -1

  /** The integers no `UiLayer` member has: Screen 0, Overlay 1, Popup 2. */
  type UndeclaredLayerValue = x: int | x < 0 || x > 2 witness -1

  datatype ScreenId = MainMenu | Settings | UndeclaredScreen(raw: UndeclaredScreenValue) {
    /** One of the members the `ScreenId` enum declares. */
    predicate Declared() { MainMenu? || Settings? }
  }

  datatype UiLayer = Screen | Overlay | Popup | UndeclaredLayer(raw: UndeclaredLayerValue)

  /** Handles of Unity objects, compared by identity. */
  type ViewId = nat
  type GoId = nat
  type TransformId = nat
  type PrefabId = nat
}

=== FILE: ui_manager.dfy ===
/** `UiManager`: shows and hides screens on `ShowView` / `HideView` /
    `ToggleView` requests, keeping one (view, presenter, object) record per
    active screen. Views, presenters and game objects are opaque handles;
    every call made on them is appended to an effect trace, so the order of
    those calls can be stated. */
module UiManager {
  import opened Wrappers
  import opened UiConstants
  import PF = PresenterFactory
  import SL = ServiceLocator
  import Bus = EventBus
  import Collections

  /** One catalog entry; `prefab` and `parent` are nullable references. */
  datatype ViewEntry = ViewEntry(id: ScreenId, prefab: Option<PrefabId>, layer: UiLayer, parent: Option<TransformId>)

  /** An `IUiAnchors` provider: the three roots it returns (an implementation
      may return null for any of them). */
  datatype Anchors = Anchors(screenRoot: Option<TransformId>, overlayRoot: Option<TransformId>, popupRoot: Option<TransformId>)

  datatype Record = Record(view: ViewId, presenter: PF.Presenter, go: GoId)

  /** `catalog` is the serialized `_views` list, `anchors` the provider set by
      `SetAnchors` (if any), `transform` the manager's own transform, and
      `active` the `_active` dictionary. */
  datatype Manager = Manager(catalog: seq<ViewEntry>, anchors: Option<Anchors>, transform: TransformId, active: map<ScreenId, Record>)

  datatype Effect =
    | PrefabNotFound(id: ScreenId)                   // error log
    | NoAnchorsFound                                 // error log
    | ServiceNotFound(service: SL.ServiceType)       // error log of the registry
    | Instantiate(prefab: PrefabId, parent: TransformId, go: GoId)
    | DestroyObject(go: GoId)
    | ViewInitialize(view: ViewId)
    | ViewActive(view: ViewId, on: bool)
    | ViewDestroyFeature(view: ViewId)
    | CreatePresenter(id: ScreenId, view: ViewId)
    | PresenterInitialize(p: PF.Presenter)
    | PresenterSubscribe(p: PF.Presenter)
    | PresenterUnsubscribe(p: PF.Presenter)
    | PresenterDispose(p: PF.Presenter)

  /** What `Instantiate` gives back: a new object, and the `IView`
      component found on it, if any. */
  datatype Spawn = Spawn(go: GoId, view: Option<ViewId>)

  /** The result of one call: the new manager, the calls made, and the
      exception that escaped, if any. */
  datatype Step = Step(manager: Manager, effects: seq<Effect>, outcome: Outcome<PF.FactoryError>)

  /** Every record pairs its screen's presenter class with its own view. */
  ghost predicate Consistent(m: Manager) {
    forall id :: id in m.active ==> PF.Create(id, m.active[id].view) == Ok(m.active[id].presenter)
  }

  /** Position of the first catalog entry for `id`, or `|catalog|`. */
  function FindIndex(catalog: seq<ViewEntry>, id: ScreenId): (k: nat)
    ensures k <= |catalog|
    ensures forall i :: 0 <= i < k ==> catalog[i].id != id
    ensures k < |catalog| ==> catalog[k].id == id
    decreases |catalog|
  {
    if |catalog| == 0 || catalog[0].id == id then 0 else 1 + FindIndex(catalog[1..], id)
  }

  /** `FindEntry`: the first catalog entry for `id`; without one, a fresh
      entry with no prefab on the Screen layer. */
  function FindEntry(catalog: seq<ViewEntry>, id: ScreenId): (r: ViewEntry)
    ensures r.id == id
    ensures (forall i :: 0 <= i < |catalog| ==> catalog[i].id != id) ==> r == ViewEntry(id, None, Screen, None)
    ensures FindIndex(catalog, id) < |catalog| ==> r == catalog[FindIndex(catalog, id)]
  {
    var k := FindIndex(catalog, id);
    if k < |catalog| then catalog[k] else ViewEntry(id, None, Screen, None)
  }

  /** `ResolveParent`: an explicit parent wins even without anchors; with
      neither there is no parent; otherwise the layer picks the anchor root,
      and an undeclared layer falls back to the manager's own transform. */
  function ResolveParent(m: Manager, entry: ViewEntry): (r: Option<TransformId>)
    ensures entry.parent.Some? ==> r == entry.parent
    ensures entry.parent.None? && m.anchors.None? ==> r == None
    ensures entry.parent.None? && m.anchors.Some? && entry.layer == Screen ==> r == m.anchors.value.screenRoot
    ensures entry.parent.None? && m.anchors.Some? && entry.layer == Overlay ==> r == m.anchors.value.overlayRoot
    ensures entry.parent.None? && m.anchors.Some? && entry.layer == Popup ==> r == m.anchors.value.popupRoot
    ensures entry.parent.None? && m.anchors.Some? && entry.layer.UndeclaredLayer? ==> r == Some(m.transform)
    ensures r.None? ==> entry.parent.None? && (m.anchors.None? || !entry.layer.UndeclaredLayer?)
  {
    if entry.parent.Some? then entry.parent
    else if m.anchors.None? then None
    else match entry.layer
      case Screen => m.anchors.value.screenRoot
      case Overlay => m.anchors.value.overlayRoot
      case Popup => m.anchors.value.popupRoot
      case UndeclaredLayer(_) => Some(m.transform)
  }

  /** The conditions under which `Show` on an inactive screen records it:
      a catalog prefab, a parent, a view component, a presenter class. */
  predicate ShowSucceeds(m: Manager, id: ScreenId, spawn: Spawn) {
    var entry := FindEntry(m.catalog, id);
    && entry.prefab.Some?
    && ResolveParent(m, entry).Some?
    && spawn.view.Some?
    && id.Declared()
  }

  /** `Show(id)`. */
  function Show(m: Manager, id: ScreenId, spawn: Spawn): (r: Step)
    ensures r.manager.catalog == m.catalog && r.manager.anchors == m.anchors && r.manager.transform == m.transform
    ensures r.manager.active - {id} == m.active - {id}
    // already shown: only reactivated, nothing instantiated
    ensures id in m.active ==> r == Step(m, [ViewActive(m.active[id].view, true)], Pass)
    // a record is added exactly on success, after this call order
    ensures id in r.manager.active <==> id in m.active || ShowSucceeds(m, id, spawn)
    // the factory throws for an undeclared screen after the view was activated
    ensures r.outcome.Fail? ==> r.manager == m && r.outcome == Fail(PF.NotImplemented(id)) && !id.Declared()
    // ... and it does throw there, leaving the object instantiated and its view active
    ensures var entry := FindEntry(m.catalog, id);
      id !in m.active && entry.prefab.Some? && ResolveParent(m, entry).Some? && spawn.view.Some? && !id.Declared() ==>
        var v := spawn.view.value;
        r == Step(m, [Instantiate(entry.prefab.value, ResolveParent(m, entry).value, spawn.go),
                      ViewInitialize(v), ViewActive(v, true), CreatePresenter(id, v)],
                  Fail(PF.NotImplemented(id)))
    ensures Consistent(m) ==> Consistent(r.manager)
  {
    if id in m.active then Step(m, [ViewActive(m.active[id].view, true)], Pass)
    else
      var entry := FindEntry(m.catalog, id);
      match entry.prefab
      case None => Step(m, [PrefabNotFound(id)], Pass)
      case Some(prefab) =>
        match ResolveParent(m, entry)
        case None => Step(m, [NoAnchorsFound], Pass)
        case Some(parent) =>
          var made := [Instantiate(prefab, parent, spawn.go)];
          match spawn.view
          case None => Step(m, made + [DestroyObject(spawn.go)], Pass)
          case Some(v) =>
            var calls := made + [ViewInitialize(v), ViewActive(v, true), CreatePresenter(id, v)];
            match PF.Create(id, v)
            case Err(e) => Step(m, calls, Fail(e))
            case Ok(p) =>
              Step(m.(active := m.active[id := Record(v, p, spawn.go)]),
                   calls + [PresenterInitialize(p), PresenterSubscribe(p)], Pass)
  }

  /** Without a prefab, or without a parent, `Show` logs one error and
      changes nothing; an instantiated object without a view is destroyed
      again and nothing is recorded. */
  lemma ShowAbortPaths(m: Manager, id: ScreenId, spawn: Spawn)
    requires id !in m.active
    ensures var entry := FindEntry(m.catalog, id);
      && (entry.prefab.None? ==> Show(m, id, spawn) == Step(m, [PrefabNotFound(id)], Pass))
      && (entry.prefab.Some? && ResolveParent(m, entry).None? ==> Show(m, id, spawn) == Step(m, [NoAnchorsFound], Pass))
      && (entry.prefab.Some? && ResolveParent(m, entry).Some? && spawn.view.None? ==>
            Show(m, id, spawn) == Step(m, [Instantiate(entry.prefab.value, ResolveParent(m, entry).value, spawn.go),
                                           DestroyObject(spawn.go)], Pass))
  {
  }

  /** A successful `Show` initializes and activates the view, creates the
      screen's presenter on that view, initializes and subscribes it, and
      only then records the triple. */
  lemma ShowCallOrder(m: Manager, id: ScreenId, spawn: Spawn)
    requires id !in m.active && ShowSucceeds(m, id, spawn)
    ensures var r := Show(m, id, spawn);
      var entry := FindEntry(m.catalog, id);
      var v := spawn.view.value;
      var p := PF.Presenter(PF.KindFor(id), v);
      && r.manager.active == m.active[id := Record(v, p, spawn.go)]
      && r.outcome == Pass
      && r.effects == [Instantiate(entry.prefab.value, ResolveParent(m, entry).value, spawn.go),
                       ViewInitialize(v), ViewActive(v, true), CreatePresenter(id, v),
                       PresenterInitialize(p), PresenterSubscribe(p)]
  {
  }

  /** The calls `Hide` makes on one record; `Destroy` is skipped for an
      object Unity has already destroyed (the `if (tup.go)` test). */
  function HideEffects(rec: Record, destroyed: set<GoId>): seq<Effect> {
    [PresenterUnsubscribe(rec.presenter), PresenterDispose(rec.presenter),
     ViewActive(rec.view, false), ViewDestroyFeature(rec.view)]
    + (if rec.go in destroyed then [] else [DestroyObject(rec.go)])
  }

  /** `Hide(id)`: nothing for an inactive screen; otherwise unsubscribe and
      dispose the presenter, deactivate and tear down the view, destroy the
      object, drop the record. Other records stay. */
  function Hide(m: Manager, id: ScreenId, destroyed: set<GoId>): (r: Step)
    ensures id !in m.active ==> r == Step(m, [], Pass)
    ensures id !in r.manager.active
    ensures r.manager.active - {id} == m.active - {id}
    ensures r.manager.catalog == m.catalog && r.manager.anchors == m.anchors && r.manager.transform == m.transform
    ensures r.outcome == Pass
    ensures id in m.active ==>
              var rec := m.active[id];
              && |r.effects| >= 4
              && r.effects[..4] == [PresenterUnsubscribe(rec.presenter), PresenterDispose(rec.presenter),
                                    ViewActive(rec.view, false), ViewDestroyFeature(rec.view)]
              && (rec.go !in destroyed <==> r.effects[4..] == [DestroyObject(rec.go)])
    ensures Consistent(m) ==> Consistent(r.manager)
  {
    if id !in m.active then Step(m, [], Pass)
    else
      Step(m.(active := m.active - {id}), HideEffects(m.active[id], destroyed), Pass)
  }

  /** `Toggle(id)`: hides an active screen, shows any other. */
  function Toggle(m: Manager, id: ScreenId, spawn: Spawn, destroyed: set<GoId>): (r: Step)
    ensures id in m.active ==> r == Hide(m, id, destroyed) && id !in r.manager.active
    ensures id !in m.active ==> r == Show(m, id, spawn)
    ensures Consistent(m) ==> Consistent(r.manager)
  {
    if id in m.active then Hide(m, id, destroyed) else Show(m, id, spawn)
  }

  /** Show idempotence: a second `Show` of a screen that the first one
      recorded only reactivates its view; no second object or presenter. */
  lemma ShowTwiceInstantiatesOnce(m: Manager, id: ScreenId, s1: Spawn, s2: Spawn)
    requires id !in m.active && ShowSucceeds(m, id, s1)
    ensures var first := Show(m, id, s1);
      var second := Show(first.manager, id, s2);
      && second.manager == first.manager
      && second.effects == [ViewActive(s1.view.value, true)]
  {
  }

  /** A screen without an explicit parent is instantiated under the anchor
      root of its layer. */
  lemma ShowInstantiatesUnderLayerRoot(m: Manager, id: ScreenId, spawn: Spawn)
    requires id !in m.active && ShowSucceeds(m, id, spawn)
    requires FindEntry(m.catalog, id).parent.None?
    ensures var entry := FindEntry(m.catalog, id);
      var r := Show(m, id, spawn);
      && m.anchors.Some?
      && |r.effects| > 0 && r.effects[0].Instantiate?
      && r.effects[0].prefab == entry.prefab.value
      && r.effects[0].go == spawn.go
      && (entry.layer == Screen ==> Some(r.effects[0].parent) == m.anchors.value.screenRoot)
      && (entry.layer == Overlay ==> Some(r.effects[0].parent) == m.anchors.value.overlayRoot)
      && (entry.layer == Popup ==> Some(r.effects[0].parent) == m.anchors.value.popupRoot)
      && (entry.layer.UndeclaredLayer? ==> r.effects[0].parent == m.transform)
  {
    ShowCallOrder(m, id, spawn);
  }

  /** Hide then Show builds a fresh pair from the new object rather than
      reusing the torn-down record. */
  lemma HideThenShowIsFresh(m: Manager, id: ScreenId, destroyed: set<GoId>, s: Spawn)
    requires id in m.active
    requires ShowSucceeds(Hide(m, id, destroyed).manager, id, s)
    ensures var shown := Show(Hide(m, id, destroyed).manager, id, s).manager;
      && shown.active[id].go == s.go
      && shown.active[id].view == s.view.value
      && shown.active[id].presenter.view == s.view.value
  {
  }

  /** Toggle symmetry: on a hidden screen that can be shown, two toggles
      give back the initial records. */
  lemma ToggleTwiceRestores(m: Manager, id: ScreenId, s: Spawn, destroyed: set<GoId>)
    requires id !in m.active && ShowSucceeds(m, id, s)
    ensures Toggle(Toggle(m, id, s, destroyed).manager, id, s, destroyed).manager == m
  {
    var shown := Show(m, id, s).manager;
    assert shown.active - {id} == m.active - {id};
    assert shown.active - {id} == m.active;
  }

  /** A `ShowView` for a screen with no catalog entry, on a manager with no
      records: one "prefab not found" log and no record. */
  lemma ShowWithoutDescriptor(m: Manager, id: ScreenId, s: Spawn)
    requires m.active == map[]
    requires forall i :: 0 <= i < |m.catalog| ==> m.catalog[i].id != id
    ensures Show(m, id, s) == Step(m, [PrefabNotFound(id)], Pass)
  {
  }

  /** The manager's three bus handlers. */
  datatype UiHandlers = UiHandlers(onShow: Bus.HandlerId, onHide: Bus.HandlerId, onToggle: Bus.HandlerId)

  const IUiManager: SL.ServiceType := "IUiManager"

  /** The calls `OnDisable` makes on one record: `Hide`'s calls without
      `ActiveView(false)`. */
  function TeardownEffects(rec: Record, destroyed: set<GoId>): seq<Effect> {
    [PresenterUnsubscribe(rec.presenter), PresenterDispose(rec.presenter), ViewDestroyFeature(rec.view)]
    + (if rec.go in destroyed then [] else [DestroyObject(rec.go)])
  }

  /** The teardown calls for the records listed by `order`, in that order. */
  function TeardownAll(active: map<ScreenId, Record>, order: seq<ScreenId>, destroyed: set<GoId>): seq<Effect>
    decreases |order|
  {
    if |order| == 0 then []
    else if order[0] !in active then TeardownAll(active, order[1..], destroyed)
    else TeardownEffects(active[order[0]], destroyed) + TeardownAll(active, order[1..], destroyed)
  }

  /** Teardown of one record is `Hide`'s sequence with only the
      deactivation left out. */
  lemma TeardownIsHideWithoutDeactivate(rec: Record, destroyed: set<GoId>)
    ensures var t := TeardownEffects(rec, destroyed);
      HideEffects(rec, destroyed) == t[..2] + [ViewActive(rec.view, false)] + t[2..]
  {
  }

  datatype Teardown = Teardown(manager: Manager, effects: seq<Effect>, bus: Option<Bus.Table>, locator: SL.Locator)

  /** `OnDisable`: unsubscribes the three handlers when a bus is known,
      unregisters `IUiManager` only when the registered instance is this
      manager (`self`), tears every record down in the dictionary's
      enumeration order `order`, and clears the records. */
  function Disable(m: Manager, order: seq<ScreenId>, destroyed: set<GoId>, bus: Option<Bus.Table>,
                   hs: UiHandlers, l: SL.Locator, self: SL.Instance): (r: Teardown)
    requires self != SL.Null
    requires Collections.Enumerates(order, m.active.Keys)
    ensures r.manager == m.(active := map[])
    ensures bus.None? ==> r.bus.None?
    ensures bus.Some? ==> r.bus.Some? && forall tag :: tag !in {"ShowView", "HideView", "ToggleView"} ==>
              Bus.Handlers(r.bus.value, tag) == Bus.Handlers(bus.value, tag)
    ensures bus.Some? ==> r.bus.Some? && Bus.Handlers(r.bus.value, "ShowView") ==
                             Collections.RemoveFirst(Bus.Handlers(bus.value, "ShowView"), hs.onShow)
    ensures bus.Some? ==> r.bus.Some? && Bus.Handlers(r.bus.value, "HideView") ==
                             Collections.RemoveFirst(Bus.Handlers(bus.value, "HideView"), hs.onHide)
    ensures bus.Some? ==> r.bus.Some? && Bus.Handlers(r.bus.value, "ToggleView") ==
                             Collections.RemoveFirst(Bus.Handlers(bus.value, "ToggleView"), hs.onToggle)
    ensures r.locator == (if SL.Get(l, IUiManager).value == self then SL.Unregister(l, IUiManager) else l)
    ensures SL.Get(l, IUiManager).value == self ==> SL.Get(r.locator, IUiManager).notFoundLogged
    ensures var pre := if IUiManager in l.services then [] else [ServiceNotFound(IUiManager)];
      r.effects == pre + TeardownAll(m.active, order, destroyed)
  {
    var bus' := match bus
      case None => None
      case Some(t) =>
        var t1 := Bus.Unsubscribe(t, "ShowView", hs.onShow);
        var t2 := Bus.Unsubscribe(t1, "HideView", hs.onHide);
        Some(Bus.Unsubscribe(t2, "ToggleView", hs.onToggle));
    var current := SL.Get(l, IUiManager);
    var l' := if current.value == self then SL.Unregister(l, IUiManager) else l;
    var pre := if current.notFoundLogged then [ServiceNotFound(IUiManager)] else [];
    Teardown(m.(active := map[]), pre + TeardownAll(m.active, order, destroyed), bus', l')
  }

  /** The presenters a trace disposes, in order. */
  function Disposed(effects: seq<Effect>): seq<PF.Presenter>
    decreases |effects|
  {
    if |effects| == 0 then []
    else if effects[0].PresenterDispose? then [effects[0].p] + Disposed(effects[1..])
    else Disposed(effects[1..])
  }

  lemma {:induction false} DisposedConcat(a: seq<Effect>, b: seq<Effect>)
    ensures Disposed(a + b) == Disposed(a) + Disposed(b)
    decreases |a|
  {
    if |a| == 0 {
      assert a + b == b;
    } else {
      assert (a + b)[1..] == a[1..] + b;
      DisposedConcat(a[1..], b);
    }
  }

  /** Tearing down the listed records disposes their presenters, one each,
      in the listed order. */
  lemma {:induction false} TeardownAllDisposes(active: map<ScreenId, Record>, order: seq<ScreenId>, destroyed: set<GoId>)
    requires forall i :: 0 <= i < |order| ==> order[i] in active
    ensures Disposed(TeardownAll(active, order, destroyed)) == seq(|order|, i requires 0 <= i < |order| => active[order[i]].presenter)
    decreases |order|
  {
    if |order| > 0 {
      var rec := active[order[0]];
      var tail := TeardownAll(active, order[1..], destroyed);
      TeardownAllDisposes(active, order[1..], destroyed);
      DisposedConcat(TeardownEffects(rec, destroyed), tail);
      TeardownDisposesOnce(rec, destroyed);
      var want := seq(|order|, i requires 0 <= i < |order| => active[order[i]].presenter);
      var rest := seq(|order| - 1, i requires 0 <= i < |order| - 1 => active[order[1..][i]].presenter);
      assert want == [rec.presenter] + rest;
    }
  }

  /** Tearing down one record disposes its presenter once. */
  lemma TeardownDisposesOnce(rec: Record, destroyed: set<GoId>)
    ensures Disposed(TeardownEffects(rec, destroyed)) == [rec.presenter]
  {
    var head := TeardownEffects(rec, destroyed);
    assert head[1..] == [PresenterDispose(rec.presenter), ViewDestroyFeature(rec.view)] + head[3..];
    assert head[1..][1..] == [ViewDestroyFeature(rec.view)] + head[3..];
    assert head[1..][1..][1..] == head[3..];
    assert Disposed(head[3..]) == [] by {
      if rec.go !in destroyed {
        assert head[3..] == [DestroyObject(rec.go)];
        assert head[3..][1..] == [];
      } else {
        assert head[3..] == [];
      }
    }
    assert Disposed(head[1..][1..]) == [] by {
      assert head[1..][1..][0] == ViewDestroyFeature(rec.view);
    }
    assert Disposed(head[1..]) == [rec.presenter];
    assert head[0] == PresenterUnsubscribe(rec.presenter);
  }

  /** Tearing down every record, in any enumeration order of the
      dictionary, disposes one presenter per record and each record's
      presenter among them. */
  lemma TeardownDisposesEachRecord(active: map<ScreenId, Record>, order: seq<ScreenId>, destroyed: set<GoId>)
    requires Collections.Enumerates(order, active.Keys)
    ensures var d := Disposed(TeardownAll(active, order, destroyed));
      && |d| == |active|
      && forall id :: id in active ==> active[id].presenter in d
  {
    Collections.EnumeratedAreMembers(order, active.Keys);
    TeardownAllDisposes(active, order, destroyed);
    assert |order| == |active| by {
      assert |multiset(order)| == |order|;
      assert |multiset(active.Keys)| == |active.Keys|;
    }
    var d := Disposed(TeardownAll(active, order, destroyed));
    forall id | id in active ensures active[id].presenter in d {
      assert id in multiset(order);
      var i :| 0 <= i < |order| && order[i] == id;
      assert d[i] == active[id].presenter;
    }
  }

  /** `OnDisable` disposes the presenter of every record exactly once: one
      dispose per record, and every record's presenter among them. */
  lemma DisableDisposesEachRecordOnce(m: Manager, order: seq<ScreenId>, destroyed: set<GoId>, bus: Option<Bus.Table>,
                                      hs: UiHandlers, l: SL.Locator, self: SL.Instance)
    requires self != SL.Null
    requires Collections.Enumerates(order, m.active.Keys)
    ensures var d := Disposed(Disable(m, order, destroyed, bus, hs, l, self).effects);
      && |d| == |m.active|
      && forall id :: id in m.active ==> m.active[id].presenter in d
  {
    var pre := if IUiManager in l.services then [] else [ServiceNotFound(IUiManager)];
    var rest := TeardownAll(m.active, order, destroyed);
    assert Disable(m, order, destroyed, bus, hs, l, self).effects == pre + rest;
    DisposedConcat(pre, rest);
    assert Disposed(pre) == [] by {
      if pre != [] { assert pre[1..] == []; }
    }
    assert Disposed(pre + rest) == Disposed(rest);
    TeardownDisposesEachRecord(m.active, order, destroyed);
  }
}

=== FILE: wrappers.dfy ===
/** Failure-compatible wrappers shared by every module of the model: `Option`
    stands for a nullable reference, `Result` for a call that either returns a
    value or throws, and `Outcome` for a call that returns nothing or throws. */
module Wrappers {

  datatype Option<+T> = None | Some(value: T) {

    /** The value, or `default` when absent (the C# `??` operator). */
    function GetOr(default: T): T {
      match this
      case Some(v) => v
      case None => default
    }
  }

  datatype Result<+T, +E> = Ok(value: T) | Err(error: E)

  datatype Outcome<+E> = Pass | Fail(error: E)
}
